=== FILE: README.md ===
# Quibble rule evaluation in Dafny

Quibble is a security linter for Docker Compose manifests. This project models its rule-evaluation pipeline as pure functions over in-memory manifests. It also proves properties of that model.

The pipeline has these parts:

- **Container image references.** `ContainerImage::parse` splits a reference into instance, namespace, name and tag, and its `Display` renders them back (module `Containers`).
- **Alert vocabulary.** Severities in declaration order, rule identifiers and how they render, and the alert record with its defaults (module `Security`).
- **Manifests.**
  - `Compose` holds the manifest shapes the newer rules read, plus the line mapper's key-to-line table.
  - `ComposeSpec` holds the older schema of `src/compose/spec.rs`.
- **Settings.** The defaults, and the defaults that missing fields fall back to (module `Configuration`).
- **The eight newer rules.** Each takes a configuration and a manifest and returns the alerts it pushes, in service order:
  - `VersionRule`, `SocketRule`, `RegistryRule` and `ImagesRule`.
  - `EnvironmentRule`.
  - `AllRules`: privileged containers, security options and kernel parameters.
- **The older rule set.** `ComposeRules` holds version, socket, security options and kernel parameters, together with `checks`. This is the set the `compose` command runs.
- **The registry.** `Rules` registers rules in a fixed order and runs them in turn. Every built-in rule body in `src/rules/*.rs` ends in `Ok(())` and uses no `?`, so a built-in rule never fails and only appends. A rule registered from elsewhere receives the shared alert list as `&mut Vec<Alert>`, so it may also drop, reorder or edit earlier alerts, and it may fail; the list is kept as it left it, and the next rule still runs. Its stable sort by severity lives in `SeveritySort`: an insertion sort proved equal to "every Critical alert, then every High alert, …, each group in its original order".
- **The SARIF 2.1.0 builder.** `Sarif` produces one run, with one rule descriptor and one result (section 3.27 of the OASIS SARIF 2.1.0 standard) per alert. Each result has a region (section 3.30) whose `startLine` is one-based.
- **The grouped listing of the `compose` command.** `Report` models it as a sequence of header and line events.

Iteration over a Rust `HashMap` (services, environment and sysctl maps) is modelled as the order of the given sequence. Some things the code does not show are passed in as parameters:

- how a `RuleID::Quibble` code renders (`quibble`);
- the `Display` of a service used in the security-option messages (`show`);
- `Severity::filter` (`passes`);
- `Alert::cvss` (`cvss`).

The shown files come from two stages of the program:

- The rules in `src/rules/*.rs` build `AlertLocation { path, line }` and use `RuleID::Quibble`. The model has one `Alert` type with a location made of a path and an optional zero-based line.
- The older rules in `src/compose/rules.rs` set only a path. Their alerts carry the file path and no line.
- Alerts built with `..Default::default()` and no path carry the empty path.

Where the code and its own unit test disagree, the model follows the code. The test at `src/containers.rs:89` expects the namespace of `gitea:latest` to be empty, but the parser leaves the default `_` (`Containers.ParseBareName`). The tag is split at the first `:` of the last segment, as `split_once` does.

## Model

| member | source | states |
|---|---|---|
| Containers.DefaultImage | src/containers.rs:57-68 | the default image is namespace `_`, empty name, instance `docker.io`, tag `latest`, no digest or signature |
| Containers.Parse | src/containers.rs:30-54 | fails exactly when there are more than two `/`; fills name, namespace and instance from the right; splits the tag off the last segment at its first `:`, else `latest`; digest and signature stay empty |
| Containers.DisplayOfThreeSegments | src/containers.rs:39-51 | a three-segment reference prints back exactly when its last segment has a tag, and with `:latest` appended otherwise |
| Containers.DisplayOfBareName | src/containers.rs:34-35 | a bare name prints as `docker.io/_/` followed by the name, with `:latest` when untagged |
| Containers.DisplayOfNamespacedName | src/containers.rs:36-38 | a `namespace/name` reference prints with the `docker.io/` instance in front |
| Containers.ParseDisplay | src/containers.rs:70-77 | parsing the display form of any image whose parts hold no `/` (and whose name holds no `:`) gives the image back |
| Containers.ParseBareName | src/containers.rs:84-93 | `gitea:latest` parses with namespace `_`, not the empty namespace the test expects |
| Security.Rank | src/security.rs:6-17 | every severity has a position below six in declaration order, and that position lists it |
| Security.SeveritiesEnumerate | src/security.rs:6-17 | there are exactly six severities, each listed once |
| Security.DefaultSeverity | src/security.rs:43-47 | the default severity is Information |
| Security.SeverityNameInjective | src/security.rs:49-61 | two severities that print alike are the same severity |
| Security.DefaultRuleId | src/security.rs:26-30 | the default rule identifier is the "none" identifier |
| Security.RuleIdText | src/security.rs:32-41 | CWE and OWASP identifiers print as `CWE-` and `OWASP-` followed by the code; the "none" identifier prints `N/A` |
| Security.RuleIdTextInjective | src/security.rs:32-41 | apart from internal codes, the printed identifier determines the identifier |
| Security.DefaultLocation | src/rules/registry.rs:24-27 | a location left to its default has the empty path and no line |
| Security.NewAlert | src/security.rs:70-74 | a new alert has empty details, the default severity, the default identifier and the default location |
| Security.AlertText | src/security.rs:76-85 | an alert prints as `Alert(sev, id, 'details')` with the printed identifier, or as `Alert(sev, 'details')` exactly when its identifier is "none" |
| Security.AlertTextShortFormInjective | src/security.rs:81-83 | two alerts without an identifier that print alike have the same severity and details |
| Compose.MappingLine | src/rules/version.rs:24-27 | a line is reported exactly when the line mapper knows the key, and it is the mapped line |
| Compose.ParseImage | src/rules/registry.rs:18 | a service without an image has no parsed image; otherwise the result is the image parser's |
| ComposeSpec.SpecText | src/compose/spec.rs:28-35 | prints `Compose('v', 'name')` with a project name and `Compose('v')` without one, which is the only way to get the shorter text |
| ComposeSpec.EmptyService | src/compose/spec.rs:37-65 | a service may leave every one of its twelve fields out |
| Configuration.DefaultRegistries | src/config.rs:75-88 | the allowed registries are `docker.io`, `ghcr.io`, `mcr.microsoft.com` and `gcr.io`, in that order |
| Configuration.DefaultSeverityName | src/config.rs:70-73 | the default severity setting is the printed name of Medium |
| Configuration.DefaultConfig | src/config.rs:23-32 | default settings: the default registries and severity, rules enabled, no per-rule settings |
| Configuration.FromFields | src/config.rs:7-21 | each field a document leaves out takes its default, and each field it gives is kept |
| VersionRule.ClassifyVersion | src/rules/version.rs:19-50 | `1` is a Medium finding; `2`, `2.0`–`2.4`, `3` and `3.0`–`3.5` are Low findings; every other version is not a finding |
| VersionRule.DockerVersion | src/rules/version.rs:11-53 | at most one alert, present exactly for a listed version, on the line of `version`, with the matching code and severity |
| SocketRule.FindPrefixed | src/rules/socket.rs:22-24 | the search finds the first item with the prefix, and finds none exactly when no item has it |
| SocketRule.ServiceSocketAlerts | src/rules/socket.rs:20-41 | a service raises the socket alert exactly when some volume starts with `/var/run/docker.sock`, and raises it once |
| SocketRule.DockerSocketOnePerService | src/rules/socket.rs:13-44 | the rule yields one High alert for each service that mounts the socket, in service order, on the file's path |
| RegistryRule.ServiceRegistryAlerts | src/rules/registry.rs:17-30 | a service whose parsed instance is not allowed raises one alert naming the instance; any other service raises nothing |
| RegistryRule.DockerRegistryOnePerService | src/rules/registry.rs:12-33 | one High alert with no line for each service from an unlisted registry, in service order |
| RegistryRule.ShortReferenceTrusted | src/rules/registry.rs:18-19 | a reference with fewer than three segments resolves to `docker.io`, so it passes whenever `docker.io` is allowed |
| RegistryRule.ForeignInstanceFlagged | src/rules/registry.rs:19-28 | a three-segment reference from an unlisted instance raises exactly one alert naming that instance |
| ImagesRule.ServiceBuildAlerts | src/rules/images.rs:17-46 | a string `build` raises one Information build-context alert naming that path; an object `build` raises the alert naming its context when it has one, and nothing otherwise |
| ImagesRule.ServiceImageAlerts | src/rules/images.rs:49-96 | an image with `${` raises only the variable alert; a parsed image raises the tag alert, plus the Medium rolling-tag alert for `latest`, `main` or `master`; an unparsable image raises nothing; all on the `image` line |
| ImagesRule.UntaggedImageIsRolling | src/rules/images.rs:79-94 | an image written without a tag is reported as a rolling tag |
| ImagesRule.PinnedImageNotRolling | src/rules/images.rs:79-94 | an image pinned to another tag gets the Information tag alert alone |
| ImagesRule.ContainerImagesSeverities | src/rules/images.rs:10-99 | every alert of the rule is Information except the Medium rolling-tag alert |
| EnvironmentRule.CheckEnvironment | src/rules/environment.rs:11-49 | a key naming `DEBUG` raises the Medium CWE-1244 alert; a key naming `PASSWORD`, `KEY` or `TOKEN` raises one Low CWE-215 alert; both can fire, debug first |
| EnvironmentRule.ItemKey | src/rules/environment.rs:60-77 | a list entry is checked exactly when it is a string holding `=`, under the text before its first `=` |
| EnvironmentRule.ServiceAlertsAreCheckedKeys | src/rules/environment.rs:56-99 | for both the list and the map shapes, a service's alerts are the checks of its collected keys, in order |
| EnvironmentRule.CheckedKeysOf | src/rules/environment.rs:60-97 | a list entry `KEY=VALUE` is checked under `KEY`, and a map entry with a string value is checked under its key |
| EnvironmentRule.CheckedKeyReported | src/rules/environment.rs:52-103 | every checked key that names a debug flag or a secret is reported on that variable's line |
| EnvironmentRule.EnvironmentAlertOrigin | src/rules/environment.rs:52-103 | every alert of the rule is the debug or the secret alert of some key the rule checked |
| AllRules.PrivilegedOnePerService | src/rules/all.rs:10-32 | one High alert for each service with `privileged: true`, in service order, and nothing else |
| AllRules.WeakOptionAlerts | src/rules/all.rs:41-59 | one alert per option that starts with `no-new-privileges` and ends with `false`, so none for an empty or enabling list |
| AllRules.ServiceSecurityOptAlerts | src/rules/all.rs:39-76 | a service without `security_opt` raises one "not set" alert; otherwise it raises one "set to false" alert per disabling option; all are High |
| AllRules.SecurityOptsSilentOnlyWhenSet | src/rules/all.rs:39-76 | a service is silent exactly when it lists options and none of them disables the protection |
| AllRules.SecurityOptsReportsUnset | src/rules/all.rs:61-75 | every service without `security_opt` is reported |
| AllRules.SecurityOptsAllHigh | src/rules/all.rs:35-78 | every alert of the rule is High, with the security-options code, on the file's path |
| AllRules.SysctlNames | src/rules/all.rs:111-128 | in list form every string item is checked, in order and with repeats, and the other items are skipped; in map form every key is checked, in order |
| AllRules.CapabilityCheck | src/rules/all.rs:139-177 | the NET_ADMIN, SYS_ADMIN and ALL tests on an added capability are independent, and each passing test adds exactly one alert of its own |
| AllRules.SysctlAlerts | src/rules/all.rs:93-128 | the sysctl loop raises one Information alert per inspected name starting with `net.ipv4.conf.all`, in order, and nothing for the other names |
| AllRules.ServiceKernelAlerts | src/rules/all.rs:84-180 | with `sysctls`, the syscalls alert and then the sysctl findings; after that, with `cap_add` and whether or not `sysctls` is there, the extra-parameters alert and then the capability findings; a service with neither raises nothing |
| AllRules.CapabilityHeaderPresent | src/rules/all.rs:132-137 | every service with `cap_add` gets the extra-parameters alert, with or without `sysctls` |
| AllRules.KernelSeverities | src/rules/all.rs:80-182 | an alert of the rule is High exactly when it is the all-capabilities alert; otherwise it is Medium or Information |
| AllRules.AllCapabilitiesFlagged | src/rules/all.rs:164-177 | an added capability containing `ALL` is reported as High |
| AllRules.Ipv4SysctlFlagged | src/rules/all.rs:93-128 | every inspected sysctl starting with `net.ipv4.conf.all` is reported |
| ComposeRules.ComposeVersion | src/compose/rules.rs:7-43 | the older version rule gives at most one alert, for the listed versions, with no identifier, on the file |
| ComposeRules.VersionRulesAgree | src/compose/rules.rs:13-41 | the older and the newer version rule give the same message and severity for the same version |
| ComposeRules.DockerSocketOnePerService | src/compose/rules.rs:46-70 | one OWASP-D04 High alert for each service mounting the socket, in service order |
| ComposeRules.SecurityOptsCount | src/compose/rules.rs:73-101 | one alert per service without options, plus one per disabling option, each a High OWASP-D04 alert |
| ComposeRules.CapabilityCheck | src/compose/rules.rs:121-146 | NET_ADMIN and SYS_ADMIN each add exactly one Medium alert, independently, and there is no ALL test |
| ComposeRules.SysctlAlerts | src/compose/rules.rs:108-118 | the older sysctl loop raises one Information alert per sysctl starting with `net.ipv4.conf.all`, in order, with no opening alert |
| ComposeRules.ServiceKernelAlerts | src/compose/rules.rs:106-147 | a service's kernel alerts are its sysctl findings, then, with `cap_add`, the capability header and the capability findings; without `cap_add` there is no header |
| ComposeRules.KernalParametersNeverHigh | src/compose/rules.rs:103-150 | the older kernel rule raises only the two Medium capability alerts and Information alerts |
| ComposeRules.KernalIpv4SysctlFlagged | src/compose/rules.rs:108-118 | every sysctl starting with `net.ipv4.conf.all` is reported by name |
| ComposeRules.KernalCapabilityHeader | src/compose/rules.rs:121-125 | a service gets the capability header exactly when it has `cap_add` |
| ComposeRules.Checks | src/compose/rules.rs:153-162 | `checks` holds the version, socket, security-option and kernel alerts as four consecutive blocks, in that order |
| ComposeRules.ChecksPointAtFile | src/compose/rules.rs:153-162 | every alert of the older rule set points at the file, except the capability header, which has the empty path |
| SeveritySort.OfRankMember | src/rules.rs:56 | a severity group holds exactly the alerts of that severity |
| SeveritySort.Sort | src/rules.rs:56 | the insertion sort is a permutation of its input |
| SeveritySort.SortIsBucketed | src/rules.rs:56 | the insertion sort equals the groups in rank order, each in input order, which is stability, and the result is sorted |
| SeveritySort.BySeverityBuckets | src/rules.rs:56 | sorting by severity gives the Critical, High, Medium, Low, Information and Quality alerts, in that order |
| SeveritySort.SortBySeverity | src/rules.rs:56 | the loop computes the stable sort: a permutation of the alerts, non-decreasing in severity rank |
| SeveritySort.SortBySeverityIdempotent | src/rules.rs:56 | sorting sorted alerts again changes nothing |
| Rules.Register | src/rules.rs:60-66 | registering appends the rule and keeps the earlier ones and the configuration |
| Rules.New | src/rules.rs:27-46 | a fresh registry holds nothing when rules are disabled, and otherwise the eight built-in rules in their fixed order |
| Rules.LenAfterNewAndRegister | src/rules.rs:68-70 | a fresh registry holds 0 or 8 rules, and each registration adds one |
| Rules.Evaluate | src/rules.rs:51 | a built-in rule never fails and keeps the list it is handed as a prefix of its result |
| Rules.AppendsOnlyStep | src/rules.rs:19 | a rule that only appends, which every built-in rule does, adds after any list exactly what it adds to an empty one |
| Rules.CollectIsConcatenation | src/rules.rs:49-55 | when every rule only appends, running them collects every rule's alerts in registration order, whether a rule fails or not |
| Rules.FailureKeepsAlerts | src/rules.rs:50-54 | the list a failing rule leaves is kept and handed to the rules after it, which still run; if the rule only appends, every earlier alert stays, followed by its own |
| Rules.Run | src/rules.rs:48-58 | `run` threads one list through the rules in order and returns it stably sorted by severity: a permutation, non-decreasing in rank |
| Rules.DisabledRegistryIsSilent | src/rules.rs:33-35 | with rules disabled, a fresh registry reports nothing |
| Rules.DefaultRegistryOrder | src/rules.rs:36-43 | before sorting, a fresh registry yields the built-in rules' alerts in registration order, starting with the version rule's |
| Sarif.DefaultSarifFile | src/formatters/sarif.rs:15-22 | a new log has format version `2.1.0` and no runs |
| Sarif.DefaultArtifactLocation | src/formatters/sarif.rs:165-172 | an artifact location defaults to base `%SRCROOT%` and index 0 |
| Sarif.StripPrefix | src/formatters/sarif.rs:79-83 | stripping succeeds exactly when the base's components begin the path's components |
| Sarif.StripPrefixRoundTrip | src/formatters/sarif.rs:79-83 | the base's components followed by the stripped path's components are the path's components |
| Sarif.Uri | src/formatters/sarif.rs:79-83 | a path the base is not a prefix of is reported unchanged |
| Sarif.NewBuilder | src/formatters/sarif.rs:44-49 | a new builder has the default tool, the empty base and no alerts |
| Sarif.AddResults | src/formatters/sarif.rs:51-54 | adding results appends them after the earlier alerts, keeping order and duplicates |
| Sarif.SetBase | src/formatters/sarif.rs:56-59 | setting the base changes only the base |
| Sarif.SetTool | src/formatters/sarif.rs:61-71 | setting the tool names and versions the driver, sets the organization to `geekmasher` and starts with no rules |
| Sarif.StartLine | src/formatters/sarif.rs:116 | the start line is the stored zero-based line plus one, or 1 when there is none, so it is always at least 1 |
| Sarif.Build | src/formatters/sarif.rs:73-126 | building succeeds with version `2.1.0` and exactly one run; the run keeps the tool, adds one rule per alert after the tool's own rules, and holds one result per alert |
| Sarif.BuildReportsAlert | src/formatters/sarif.rs:78-122 | for each alert, its result's rule id equals its rule's id and property id, the printed identifier; it also fixes the message, the lower-cased severity, precision `high`, the relative URI and the one-based start line |
| Sarif.BuildAfterAddResults | src/formatters/sarif.rs:78-122 | the results of added alerts follow the earlier results, with nothing merged or reordered |
| Sarif.FreshBuilderRules | src/formatters/sarif.rs:61-126 | a builder made by `new` and `set_tool` reports exactly one rule and one result per alert, under the named tool |
| Report.TierOf | src/main.rs:67-75 | Critical and High are red, Medium and Low yellow, and the other severities green |
| Report.ScanAppend | src/main.rs:48-53 | each scanned manifest's alerts follow those of the manifests before it |
| Report.PrintListing | src/main.rs:55-77 | the loop prints the grouped listing |
| Report.ListingIsGrouped | src/main.rs:55-77 | the listing is, for each alert passing the filter, a header exactly when its path differs from the previously printed path, then its line |
| Report.ListingLines | src/main.rs:56-76 | every alert passing the filter prints exactly one line, in input order; filtered alerts print nothing and leave the current path alone |
| Report.ConsecutiveSamePath | src/main.rs:62-65 | consecutive printed alerts with the same path share one header |
| Report.LeadingEmptyPathHasNoHeader | src/main.rs:55-65 | because the current path starts empty, a first printed alert with the empty path gets no header |

## Left out

- File and YAML input are not modelled: `compose::find`, `ComposeFile::parse`, `ComposeSpec::parse`, `Config::load` and `SarifFile::write`. The manifest, the settings and the line mapper's table are inputs.
- JSON serialisation and the serde renames of the SARIF records are not modelled; the records are datatypes.
- The `canonicalize` call in `SarifBuilder::base` is not modelled; the base is taken as given.
- Command-line parsing, logger setup, the banner, terminal styling and centring, and all log output are not modelled. Only the colour tier of a printed severity is kept.
- The `registry` and unsupported subcommands of `src/main.rs` are not modelled; they only call `todo!`.
- `Severity::filter`, `Alert::cvss`, the rendering of `RuleID::Quibble` codes and the `Display` of a service are not shown, so they are parameters.
- `Service::parse_image` is not shown. It is taken to be `ContainerImage::parse` on `image`, and an error when `image` is absent.
- The `Ord` on `Severity` that the sort uses is not shown. It is taken to be declaration order, Critical first.
- `HashMap` iteration order is not modelled; the services, environment and sysctl maps are given as sequences in the order they are iterated.
- ComposeSpec.Services, Compose.Services: names may repeat in the model, while a `HashMap` key is unique; the environment and sysctl map forms (`Compose.Hash`) may likewise repeat a key. No lemma depends on uniqueness.
- Rules.CollectIsConcatenation: holds only when every rule only appends, as every built-in rule does. A registered rule that drops, reorders or edits earlier alerts is covered only by Rules.FailureKeepsAlerts and Rules.Run.
- Sarif.StripPrefix: `.` components are not dropped the way Rust's `Path::components` drops them. Repeated `/` inside the stripped remainder is shown as a single `/`.
- Sarif.StartLine: does not model the 32-bit `i32` width of `startLine`, because a manifest would need more than two billion lines to overflow it.
- Sarif.Build: states no error case, because `SarifBuilder::build` in `src/formatters/sarif.rs` never returns `Err`; the `Result` is kept only to match its signature.

=== FILE: compose.dfy ===
/**
  The manifest as the rule files in `src/rules/` read it: a compose
  specification with an optional version, its services keyed by name, and
  the file it came from together with the line mapper's key-to-line table.

  Fields that hand-written YAML can spell in several shapes are closed
  variants (`StringOrNumber`, `ListOrHashMap`, `StringOrBuild`). A YAML
  mapping is kept as the sequence of its entries in the order the map
  yields them, since the rules iterate it in that order.
 */
module Compose {
  import opened Wrappers
  import opened Containers

  /** A scalar that may be a string, a number or null. */
  datatype StringOrNumber = Str(text: string) | Number(number: int) | Null

  /** A field given either as a list or as a key/value mapping. */
  datatype ListOrHashMap =
    | Vec(items: seq<StringOrNumber>)
    | Hash(entries: seq<(string, StringOrNumber)>)

  /** `build:` as a bare context path or as an object with an optional context. */
  datatype StringOrBuild = Context(path: string) | Build(context: Option<string>)

  /** One service; every field is optional. */
  datatype Service = Service(
    image: Option<string>,
    build: Option<StringOrBuild>,
    containerName: Option<string>,
    dns: Option<seq<string>>,
    envFile: Option<string>,
    environment: Option<ListOrHashMap>,
    expose: Option<seq<string>>,
    ports: Option<seq<string>>,
    volumes: Option<seq<string>>,
    labels: Option<seq<string>>,
    securityOpt: Option<seq<string>>,
    restart: Option<string>,
    sysctls: Option<ListOrHashMap>,
    capAdd: Option<seq<string>>,
    privileged: Option<bool>)

  /** The services, in the order the service map yields them. */
  type Services = seq<(string, Service)>

  datatype ComposeSpec = ComposeSpec(version: Option<string>, name: Option<string>, services: Services)

  /** A parsed compose file: its path, its contents and the line mapper's
      table from dotted key paths to zero-based lines. */
  datatype ComposeFile = ComposeFile(path: string, compose: ComposeSpec, mappings: map<string, nat>)

  /** `compose_file.mappings.get(key).copied()` */
  function MappingLine(file: ComposeFile, key: string): (line: Option<nat>)
    ensures line.Some? <==> key in file.mappings
    ensures line.Some? ==> line.value == file.mappings[key]
  {
    if key in file.mappings then Some(file.mappings[key]) else None
  }

  /** The dotted key of a service: `services.<name>`. */
  function ServiceKey(name: string): string {
    "services." + name
  }

  /** The dotted key of a service field: `services.<name>.<field>`. */
  function FieldKey(name: string, field: string): string {
    ServiceKey(name) + "." + field
  }

  /** Why a service has no parsed image. */
  datatype ImageError = NoImage | Unparsable(reason: ParseError)

  /** `Service::parse_image`: the service's `image` through `ContainerImage::parse`. */
  function ParseImage(service: Service): (r: Result<ContainerImage, ImageError>)
    ensures service.image.None? ==> r == Err(NoImage)
    ensures service.image.Some? && Parse(service.image.value).Ok? ==> r == Ok(Parse(service.image.value).value)
    ensures service.image.Some? && Parse(service.image.value).Err? ==> r.Err? && r.error.Unparsable?
  {
    match service.image
    case None => Err(NoImage)
    case Some(image) =>
      match Parse(image)
      case Ok(container) => Ok(container)
      case Err(e) => Err(Unparsable(e))
  }
}

=== FILE: compose_rules.dfy ===
/**
  The older rule set of `src/compose/rules.rs`, over the schema of
  `src/compose/spec.rs`: compose version, Docker socket, security options
  and kernel parameters, run in that order by `checks`. Its alerts carry the
  file's path and no line.
 */
module ComposeRules {
  import opened Wrappers
  import opened Strings
  import opened Seqs
  import opened Security
  import opened ComposeSpec
  import Configuration
  import Compose
  import VersionRule
  import SocketRule
  import AllRules

  /** Where an alert of this rule set points: the file, no line. */
  function FileLocation(file: ComposeFile): AlertLocation {
    AlertLocation(file.path, None)
  }

  // --------------------------------------------------------- ComposeVersion

  /** `ComposeVersion::check`: the same version table as the newer rule,
      without a rule identifier. */
  function ComposeVersion(file: ComposeFile): (alerts: seq<Alert>)
    ensures |alerts| <= 1
    ensures |alerts| == 1 <==> VersionRule.ClassifyVersion(file.compose.version).Some?
    ensures forall a :: a in alerts ==> a.id == NoId && a.location == FileLocation(file)
  {
    match VersionRule.ClassifyVersion(file.compose.version)
    case None => []
    case Some(finding) => [Alert(finding.details, finding.severity, NoId, FileLocation(file))]
  }

  /** The older and the newer version rule agree on message and severity. */
  lemma VersionRulesAgree(config: Configuration.Config, file: ComposeFile, newer: Compose.ComposeFile)
    requires newer.compose.version == Some(file.compose.version)
    ensures |ComposeVersion(file)| == |VersionRule.DockerVersion(config, newer)|
    ensures |ComposeVersion(file)| == 1 ==>
      ComposeVersion(file)[0].details == VersionRule.DockerVersion(config, newer)[0].details &&
      ComposeVersion(file)[0].severity == VersionRule.DockerVersion(config, newer)[0].severity
  {
  }

  // ----------------------------------------------------------- DockerSocket

  predicate MountsDockerSocket(entry: (string, Service)) {
    entry.1.volumes.Some? &&
    exists v :: v in entry.1.volumes.value && StartsWith(v, SocketRule.DockerSocketPath)
  }

  function SocketAlert(file: ComposeFile): Alert {
    Alert("Docker Socket being passed into container", High, Owasp("D04"), FileLocation(file))
  }

  function SocketStep(file: ComposeFile): ((string, Service)) -> seq<Alert> {
    (entry: (string, Service)) =>
      match entry.1.volumes
      case Some(volumes) => if SocketRule.FindPrefixed(volumes, SocketRule.DockerSocketPath).Some? then [SocketAlert(file)] else []
      case None => []
  }

  /** `DockerSocket::check` */
  function DockerSocket(file: ComposeFile): seq<Alert> {
    ConcatMap(file.compose.services, SocketStep(file))
  }

  function SocketAlertOf(file: ComposeFile): ((string, Service)) -> Alert {
    (entry: (string, Service)) => SocketAlert(file)
  }

  /** One OWASP-D04 alert per service mounting the socket. */
  lemma DockerSocketOnePerService(file: ComposeFile)
    ensures DockerSocket(file) == Map(Filter(file.compose.services, MountsDockerSocket), SocketAlertOf(file))
    ensures forall a :: a in DockerSocket(file) ==> a == SocketAlert(file)
  {
    ConcatMapSingletons(file.compose.services, SocketStep(file), MountsDockerSocket, SocketAlertOf(file));
  }

  // ----------------------------------------------------------- SecurityOpts

  function SetFalseAlert(file: ComposeFile): Alert {
    Alert("Security Opts `no-new-privileges` set to `false`", High, Owasp("D04"), FileLocation(file))
  }

  function NotSetAlert(file: ComposeFile): Alert {
    Alert("Security Opts `no-new-privileges` not set", High, Owasp("D04"), FileLocation(file))
  }

  function SecurityOptStep(file: ComposeFile): ((string, Service)) -> seq<Alert> {
    (entry: (string, Service)) =>
      match entry.1.securityOpt
      case Some(opts) => AllRules.WeakOptionAlerts(opts, SetFalseAlert(file))
      case None => [NotSetAlert(file)]
  }

  /** `SecurityOpts::check` */
  function SecurityOpts(file: ComposeFile): seq<Alert> {
    ConcatMap(file.compose.services, SecurityOptStep(file))
  }

  /** The alerts a service earns: one if it has no options, else one per
      option that disables `no-new-privileges`. */
  function ExpectedSecurityOptCount(services: Services): nat {
    if |services| == 0 then 0
    else
      (match services[0].1.securityOpt
       case Some(opts) => |Filter(opts, AllRules.DisablesNoNewPrivileges)|
       case None => 1)
      + ExpectedSecurityOptCount(services[1..])
  }

  lemma {:induction false} SecurityOptsCount(file: ComposeFile)
    ensures |SecurityOpts(file)| == ExpectedSecurityOptCount(file.compose.services)
    ensures forall a :: a in SecurityOpts(file) ==> a == SetFalseAlert(file) || a == NotSetAlert(file)
  {
    SecurityOptsCountFrom(file, file.compose.services);
  }

  lemma {:induction false} SecurityOptsCountFrom(file: ComposeFile, services: Services)
    ensures |ConcatMap(services, SecurityOptStep(file))| == ExpectedSecurityOptCount(services)
    ensures forall a :: a in ConcatMap(services, SecurityOptStep(file)) ==> a == SetFalseAlert(file) || a == NotSetAlert(file)
    decreases |services|
  {
    if |services| != 0 {
      SecurityOptsCountFrom(file, services[1..]);
    }
  }

  // ------------------------------------------------------- KernalParameters

  function Ipv4Alert(file: ComposeFile, sysctl: string): Alert {
    Alert("IPv4 Kernal Parameters modified: " + sysctl, Information, NoId, FileLocation(file))
  }

  /** The capability header: a default alert apart from its message. */
  function ExtraParametersAlert(): Alert {
    Alert("Using extra Kernal Parameters", DefaultSeverity(), DefaultRuleId(), DefaultLocation())
  }

  function NetAdminAlert(file: ComposeFile): Alert {
    Alert("Container with high networking privileages", Medium, NoId, FileLocation(file))
  }

  function SysAdminAlert(file: ComposeFile): Alert {
    Alert("Container with high system privileages", Medium, NoId, FileLocation(file))
  }

  function SysctlStep(file: ComposeFile): string -> seq<Alert> {
    (sysctl: string) => if StartsWith(sysctl, AllRules.Ipv4AllPrefix) then [Ipv4Alert(file, sysctl)] else []
  }

  /** The two substring tests on one capability; there is no `ALL` test here. */
  function CapabilityCheck(file: ComposeFile, cap: string): (alerts: seq<Alert>)
    ensures NetAdminAlert(file) in alerts <==> Contains(cap, "NET_ADMIN")
    ensures SysAdminAlert(file) in alerts <==> Contains(cap, "SYS_ADMIN")
    ensures forall a :: a in alerts ==> a.severity == Medium
    ensures |alerts| == (if Contains(cap, "NET_ADMIN") then 1 else 0) + (if Contains(cap, "SYS_ADMIN") then 1 else 0)
  {
    (if Contains(cap, "NET_ADMIN") then [NetAdminAlert(file)] else [])
    + (if Contains(cap, "SYS_ADMIN") then [SysAdminAlert(file)] else [])
  }

  function CapabilityStep(file: ComposeFile): string -> seq<Alert> {
    (cap: string) => CapabilityCheck(file, cap)
  }

  function Ipv4AlertOf(file: ComposeFile): string -> Alert {
    (sysctl: string) => Ipv4Alert(file, sysctl)
  }

  /** The findings of the sysctl loop: one Information alert per sysctl
      under `net.ipv4.conf.all`, in order; there is no opening alert here. */
  function SysctlAlerts(file: ComposeFile, sysctls: seq<string>): (alerts: seq<Alert>)
    ensures alerts == Map(Filter(sysctls, AllRules.IsIpv4All), Ipv4AlertOf(file))
  {
    ConcatMapSingletons(sysctls, SysctlStep(file), AllRules.IsIpv4All, Ipv4AlertOf(file));
    ConcatMap(sysctls, SysctlStep(file))
  }

  /** The findings of the capability loop, capability by capability. */
  function CapabilityAlerts(file: ComposeFile, caps: seq<string>): (alerts: seq<Alert>)
    ensures forall a :: a in alerts ==> a == NetAdminAlert(file) || a == SysAdminAlert(file)
  {
    var alerts := ConcatMap(caps, CapabilityStep(file));
    forall a | a in alerts ensures a == NetAdminAlert(file) || a == SysAdminAlert(file) {
      ConcatMapMember(caps, CapabilityStep(file), a);
    }
    alerts
  }

  /** The rule's body for one service: the sysctl findings, then, with
      `cap_add`, the capability header and the capability findings. */
  function ServiceKernelAlerts(file: ComposeFile, service: Service): (alerts: seq<Alert>)
    ensures |alerts| ==
      (if service.sysctls.Some? then |SysctlAlerts(file, service.sysctls.value)| else 0) +
      (if service.capAdd.Some? then 1 + |CapabilityAlerts(file, service.capAdd.value)| else 0)
    ensures service.sysctls.Some? ==>
      alerts[..|SysctlAlerts(file, service.sysctls.value)|] == SysctlAlerts(file, service.sysctls.value)
    ensures service.capAdd.Some? ==>
      var k := |alerts| - |CapabilityAlerts(file, service.capAdd.value)|;
      alerts[k - 1] == ExtraParametersAlert() && alerts[k..] == CapabilityAlerts(file, service.capAdd.value)
  {
    var sysPart := match service.sysctls
      case Some(sysctls) => SysctlAlerts(file, sysctls)
      case None => [];
    var capPart := match service.capAdd
      case Some(caps) => [ExtraParametersAlert()] + CapabilityAlerts(file, caps)
      case None => [];
    AppendSlices(sysPart, capPart);
    sysPart + capPart
  }

  function KernelStep(file: ComposeFile): ((string, Service)) -> seq<Alert> {
    (entry: (string, Service)) => ServiceKernelAlerts(file, entry.1)
  }

  /** `KernalParameters::check` */
  function KernalParameters(file: ComposeFile): seq<Alert> {
    ConcatMap(file.compose.services, KernelStep(file))
  }

  /** Every alert of one service is the capability header, a sysctl
      finding or a capability finding. */
  lemma ServiceKernelAlertKinds(file: ComposeFile, service: Service, a: Alert)
    requires a in ServiceKernelAlerts(file, service)
    ensures a == ExtraParametersAlert()
      || (service.sysctls.Some? && a in SysctlAlerts(file, service.sysctls.value))
      || (service.capAdd.Some? && a in CapabilityAlerts(file, service.capAdd.value))
  {
  }

  lemma SysctlAlertIsIpv4(file: ComposeFile, sysctls: seq<string>, a: Alert)
    requires a in SysctlAlerts(file, sysctls)
    ensures exists sysctl :: a == Ipv4Alert(file, sysctl)
  {
    var found := SysctlAlerts(file, sysctls);
    var i :| 0 <= i < |found| && found[i] == a;
    assert a == Ipv4Alert(file, Filter(sysctls, AllRules.IsIpv4All)[i]);
  }

  /** Unlike the newer rule, this one never raises a High alert: an added
      `ALL` capability goes unreported beyond the header. */
  lemma KernalParametersNeverHigh(file: ComposeFile, a: Alert)
    requires a in KernalParameters(file)
    ensures a.severity == Medium || a.severity == Information
    ensures a.severity == Medium ==> a == NetAdminAlert(file) || a == SysAdminAlert(file)
  {
    ConcatMapMember(file.compose.services, KernelStep(file), a);
    var entry :| entry in file.compose.services && a in ServiceKernelAlerts(file, entry.1);
    var service := entry.1;
    ServiceKernelAlertKinds(file, service, a);
    if a == ExtraParametersAlert() {
      assert a.severity == Information;
    } else if service.sysctls.Some? && a in SysctlAlerts(file, service.sysctls.value) {
      SysctlAlertIsIpv4(file, service.sysctls.value, a);
    }
  }

  /** A listed sysctl under `net.ipv4.conf.all` is reported by name. */
  lemma KernalIpv4SysctlFlagged(file: ComposeFile, name: string, service: Service, sysctl: string)
    requires (name, service) in file.compose.services
    requires service.sysctls.Some? && sysctl in service.sysctls.value
    requires StartsWith(sysctl, AllRules.Ipv4AllPrefix)
    ensures Ipv4Alert(file, sysctl) in KernalParameters(file)
  {
    var sysctls := service.sysctls.value;
    ConcatMapIncludes(sysctls, SysctlStep(file), sysctl, Ipv4Alert(file, sysctl));
    var alerts := ServiceKernelAlerts(file, service);
    assert Ipv4Alert(file, sysctl) in alerts[..|SysctlAlerts(file, sysctls)|];
    ConcatMapIncludes(file.compose.services, KernelStep(file), (name, service), Ipv4Alert(file, sysctl));
  }

  /** A service gets the capability header exactly when it has `cap_add`. */
  lemma KernalCapabilityHeader(file: ComposeFile, service: Service)
    ensures ExtraParametersAlert() in ServiceKernelAlerts(file, service) <==> service.capAdd.Some?
  {
    var alerts := ServiceKernelAlerts(file, service);
    if service.capAdd.Some? {
      var k := |alerts| - |CapabilityAlerts(file, service.capAdd.value)|;
      assert alerts[k - 1] == ExtraParametersAlert();
    } else if ExtraParametersAlert() in alerts {
      ServiceKernelAlertKinds(file, service, ExtraParametersAlert());
      SysctlAlertIsIpv4(file, service.sysctls.value, ExtraParametersAlert());
    }
  }

  /** Every kernel alert other than the capability header points at the file. */
  lemma KernalPointsAtFile(file: ComposeFile, a: Alert)
    requires a in KernalParameters(file) && a != ExtraParametersAlert()
    ensures a.location == FileLocation(file)
  {
    ConcatMapMember(file.compose.services, KernelStep(file), a);
    var entry :| entry in file.compose.services && a in ServiceKernelAlerts(file, entry.1);
    var service := entry.1;
    ServiceKernelAlertKinds(file, service, a);
    if service.sysctls.Some? && a in SysctlAlerts(file, service.sysctls.value) {
      SysctlAlertIsIpv4(file, service.sysctls.value, a);
    }
  }

  // ----------------------------------------------------------------- checks

  /** `checks`: the four rules' alerts, in rule order. */
  function Checks(file: ComposeFile): (alerts: seq<Alert>)
    ensures |alerts| == |ComposeVersion(file)| + |DockerSocket(file)| + |SecurityOpts(file)| + |KernalParameters(file)|
    ensures alerts[..|ComposeVersion(file)|] == ComposeVersion(file)
    ensures alerts[|ComposeVersion(file)|..|ComposeVersion(file)| + |DockerSocket(file)|] == DockerSocket(file)
    ensures alerts[|ComposeVersion(file)| + |DockerSocket(file)|..|alerts| - |KernalParameters(file)|] == SecurityOpts(file)
    ensures alerts[|alerts| - |KernalParameters(file)|..] == KernalParameters(file)
  {
    var v, d, o, k := ComposeVersion(file), DockerSocket(file), SecurityOpts(file), KernalParameters(file);
    ConcatSlices(v, d, o, k);
    v + d + o + k
  }

  /** Every alert of the older rule set other than the capability header
      points at the file. */
  lemma ChecksPointAtFile(file: ComposeFile)
    ensures forall a :: a in Checks(file) && a != ExtraParametersAlert() ==> a.location == FileLocation(file)
    ensures ExtraParametersAlert().location.path == ""
  {
    forall a | a in Checks(file) && a != ExtraParametersAlert()
      ensures a.location == FileLocation(file)
    {
      if a in DockerSocket(file) {
        DockerSocketOnePerService(file);
      } else if a in SecurityOpts(file) {
        SecurityOptsCount(file);
      } else if a in KernalParameters(file) {
        KernalPointsAtFile(file, a);
      }
    }
  }
}

=== FILE: compose_spec.dfy ===
/**
  The manifest schema of `src/compose/spec.rs` and the file record of
  `src/compose.rs`, as the older rule set in `src/compose/rules.rs` reads
  them: the version is a required string, `sysctls` is a plain list of
  strings, and a compose file carries no line table.
 */
module ComposeSpec {
  import opened Wrappers
  import opened Strings

  /** One service of the older schema; every field is optional. */
  datatype Service = Service(
    image: Option<string>,
    containerName: Option<string>,
    dns: Option<seq<string>>,
    envFile: Option<string>,
    expose: Option<seq<string>>,
    ports: Option<seq<string>>,
    volumes: Option<seq<string>>,
    labels: Option<seq<string>>,
    securityOpt: Option<seq<string>>,
    restart: Option<string>,
    sysctls: Option<seq<string>>,
    capAdd: Option<seq<string>>)

  /** A service with no field set: absence is not an error. */
  function EmptyService(): (s: Service)
    ensures s.image.None? && s.containerName.None? && s.dns.None? && s.envFile.None?
    ensures s.expose.None? && s.ports.None? && s.volumes.None? && s.labels.None?
    ensures s.securityOpt.None? && s.restart.None? && s.sysctls.None? && s.capAdd.None?
  {
    Service(None, None, None, None, None, None, None, None, None, None, None, None)
  }

  /** The services, in the order the service map yields them. */
  type Services = seq<(string, Service)>

  datatype Spec = Spec(version: string, name: Option<string>, services: Services)

  /** `ComposeFile` of `src/compose.rs`: a path and the parsed specification. */
  datatype ComposeFile = ComposeFile(path: string, compose: Spec)

  /** `Display for ComposeSpec`: `Compose('v', 'name')`, or `Compose('v')`
      when the project has no name. */
  function SpecText(spec: Spec): (t: string)
    ensures StartsWith(t, "Compose('" + spec.version + "'")
    ensures EndsWith(t, ")")
    ensures spec.name.None? <==> |t| == |spec.version| + 11
    ensures spec.name.Some? ==> EndsWith(t, ", '" + spec.name.value + "')")
    ensures spec.name.Some? ==> |t| == |spec.version| + |spec.name.value| + 15
  {
    match spec.name
    case Some(name) => "Compose('" + spec.version + "', '" + name + "')"
    case None => "Compose('" + spec.version + "')"
  }
}

=== FILE: config.dfy ===
/**
  The linter's settings (`src/config.rs`): the allowed registries, the
  minimum severity to display, the global rule switch and per-rule
  overrides, with the defaults a missing file or a missing field falls
  back to.
 */
module Configuration {
  import opened Wrappers
  import Security

  datatype RuleConfig = RuleConfig(enabled: Option<bool>, severity: Option<string>)

  datatype Config = Config(
    registries: seq<string>,
    severity: string,
    disableRules: bool,
    rules: map<string, RuleConfig>)

  /** `default_registries()`: Docker Hub, GitHub, Microsoft and Google, in that order. */
  function DefaultRegistries(): (r: seq<string>)
    ensures |r| == 4
    ensures r[0] == "docker.io" && r[1] == "ghcr.io" && r[2] == "mcr.microsoft.com" && r[3] == "gcr.io"
  {
    ["docker.io", "ghcr.io", "mcr.microsoft.com", "gcr.io"]
  }

  /** `default_severity()` */
  function DefaultSeverityName(): (s: string)
    ensures s == Security.SeverityName(Security.Medium)
  {
    "Medium"
  }

  /** `Config::default()` */
  function DefaultConfig(): (c: Config)
    ensures c.registries == DefaultRegistries() && c.severity == DefaultSeverityName()
    ensures !c.disableRules && c.rules == map[]
  {
    Config(DefaultRegistries(), DefaultSeverityName(), false, map[])
  }

  /** The fields a configuration document spells out; `None` for a field it omits. */
  datatype ConfigFields = ConfigFields(
    registries: Option<seq<string>>,
    severity: Option<string>,
    disableRules: Option<bool>,
    rules: Option<map<string, RuleConfig>>)

  /** Deserialisation with the `#[serde(default …)]` attributes: every
      omitted field takes its default, every given field is kept. */
  function FromFields(fields: ConfigFields): (c: Config)
    ensures fields.registries.None? ==> c.registries == DefaultRegistries()
    ensures fields.registries.Some? ==> c.registries == fields.registries.value
    ensures fields.severity.None? ==> c.severity == "Medium"
    ensures fields.severity.Some? ==> c.severity == fields.severity.value
    ensures c.disableRules <==> fields.disableRules == Some(true)
    ensures fields.rules.None? ==> c.rules == map[]
    ensures fields.rules.Some? ==> c.rules == fields.rules.value
  {
    Config(
      fields.registries.GetOr(DefaultRegistries()),
      fields.severity.GetOr(DefaultSeverityName()),
      fields.disableRules.GetOr(false),
      fields.rules.GetOr(map[]))
  }

  /** A document that omits every field yields the same settings as no document. */
  lemma EmptyDocumentIsDefault()
    ensures FromFields(ConfigFields(None, None, None, None)) == DefaultConfig()
  {
  }
}

=== FILE: containers.dfy ===
/**
  Container image references (`src/containers.rs`): `instance/namespace/name:tag`,
  where a reference may leave out the instance, or the instance and the
  namespace, and falls back to the defaults for what it leaves out.
 */
module Containers {
  import opened Wrappers
  import opened Strings

  datatype ContainerImage = ContainerImage(
    namespace: string,
    name: string,
    instance: string,
    tag: string,
    digest: Option<string>,
    signature: Option<string>)

  const DefaultNamespace: string := "_"
  const DefaultInstance: string := "docker.io"
  const DefaultTag: string := "latest"

  /** `ContainerImage::default()` (also what `ContainerImage::new()` returns). */
  function DefaultImage(): (img: ContainerImage)
    ensures img.namespace == "_" && img.name == "" && img.instance == "docker.io" && img.tag == "latest"
    ensures img.digest.None? && img.signature.None?
  {
    ContainerImage(DefaultNamespace, "", DefaultInstance, DefaultTag, None, None)
  }

  /** The only failure: more than three `/`-separated segments. */
  datatype ParseError = UnsupportedSplitting

  /** The segment after the last `/` (the whole string when it has none). */
  function LastSegment(s: string): string {
    var parts := Split(s, '/');
    parts[|parts| - 1]
  }

  /** What the last segment says about name and tag: split at its first `:`,
      or the whole segment as name with the default tag. */
  ghost predicate NameAndTagOf(segment: string, img: ContainerImage) {
    && ':' !in img.name
    && (':' in segment ==> segment == img.name + ":" + img.tag)
    && (':' !in segment ==> img.name == segment && img.tag == DefaultTag)
  }

  /** `ContainerImage::parse`: split on `/`, fill name, namespace and instance
      from the right, then split the tag off the name at its first `:`. */
  function Parse(container: string): (r: Result<ContainerImage, ParseError>)
    ensures r.Err? <==> Count(container, '/') > 2
    ensures r.Ok? ==> r.value.digest.None? && r.value.signature.None?
    ensures r.Ok? ==> NameAndTagOf(LastSegment(container), r.value)
    ensures r.Ok? ==> '/' !in r.value.instance && '/' !in r.value.namespace && '/' !in r.value.name
    ensures r.Ok? && Count(container, '/') == 0 ==>
      r.value.namespace == DefaultNamespace && r.value.instance == DefaultInstance
    ensures r.Ok? && Count(container, '/') == 1 ==>
      container == r.value.namespace + "/" + LastSegment(container) && r.value.instance == DefaultInstance
    ensures r.Ok? && Count(container, '/') == 2 ==>
      container == r.value.instance + "/" + r.value.namespace + "/" + LastSegment(container)
  {
    var parts := Split(container, '/');
    if |parts| > 3 then Err(UnsupportedSplitting)
    else
      var segmented :=
        if |parts| == 1 then DefaultImage().(name := parts[0])
        else if |parts| == 2 then DefaultImage().(name := parts[1], namespace := parts[0])
        else DefaultImage().(name := parts[2], namespace := parts[1], instance := parts[0]);
      assert |parts| == 2 ==> container == Join(parts, '/') == parts[0] + "/" + parts[1];
      assert |parts| == 3 ==> container == parts[0] + "/" + parts[1] + "/" + parts[2] by {
        if |parts| == 3 {
          JoinThree(parts, '/');
        }
      }
      match SplitOnce(segmented.name, ':')
      case Some((start, end)) => Ok(segmented.(tag := end, name := start))
      case None => Ok(segmented)
  }

  lemma JoinThree(parts: seq<string>, c: char)
    requires |parts| == 3
    ensures Join(parts, c) == parts[0] + [c] + parts[1] + [c] + parts[2]
  {
    assert parts[1..][1..] == [parts[2]];
    assert Join(parts[1..], c) == parts[1] + [c] + parts[2];
  }

  /** `Display for ContainerImage`: always all four parts. */
  function Display(img: ContainerImage): string {
    img.instance + "/" + img.namespace + "/" + img.name + ":" + img.tag
  }

  /** Display of a tagged last segment, regrouped. */
  lemma DisplayTagged(img: ContainerImage, last: string, shown: string)
    requires shown == img.instance + "/" + img.namespace + "/" + last
    requires last == img.name + ":" + img.tag
    ensures Display(img) == shown
  {
  }

  /** Display of an untagged last segment, regrouped. */
  lemma DisplayUntagged(img: ContainerImage, last: string, shown: string)
    requires shown == img.instance + "/" + img.namespace + "/" + last
    requires last == img.name && img.tag == DefaultTag
    ensures Display(img) == shown + ":latest"
  {
  }

  /** A fully written reference with a tag prints back exactly as written;
      without a tag it prints with `:latest` appended. */
  lemma DisplayOfThreeSegments(container: string)
    requires Count(container, '/') == 2
    ensures Parse(container).Ok?
    ensures ':' in LastSegment(container) ==> Display(Parse(container).value) == container
    ensures ':' !in LastSegment(container) ==> Display(Parse(container).value) == container + ":latest"
  {
    var img := Parse(container).value;
    var last := LastSegment(container);
    if ':' in last {
      DisplayTagged(img, last, container);
    } else {
      DisplayUntagged(img, last, container);
    }
  }

  lemma Regroup(instance: string, namespace: string, last: string, container: string)
    requires container == namespace + "/" + last
    ensures instance + "/" + container == instance + "/" + namespace + "/" + last
  {
  }

  /** A bare name prints with the default instance and namespace. */
  lemma DisplayOfBareName(container: string)
    requires '/' !in container
    ensures Parse(container).Ok?
    ensures ':' in container ==> Display(Parse(container).value) == "docker.io/_/" + container
    ensures ':' !in container ==> Display(Parse(container).value) == "docker.io/_/" + container + ":latest"
  {
    var img := Parse(container).value;
    SplitSeparatorFree(container, '/');
    var shown := "docker.io/_/" + container;
    assert "docker.io/_/" == "docker.io" + "/" + "_" + "/";
    assert shown == img.instance + "/" + img.namespace + "/" + container;
    if ':' in container {
      DisplayTagged(img, container, shown);
    } else {
      DisplayUntagged(img, container, shown);
    }
  }

  /** A `namespace/name` reference prints with the default instance. */
  lemma DisplayOfNamespacedName(container: string)
    requires Count(container, '/') == 1
    ensures Parse(container).Ok?
    ensures ':' in LastSegment(container) ==> Display(Parse(container).value) == "docker.io/" + container
    ensures ':' !in LastSegment(container) ==> Display(Parse(container).value) == "docker.io/" + container + ":latest"
  {
    var img := Parse(container).value;
    var last := LastSegment(container);
    var shown := "docker.io/" + container;
    assert "docker.io/" == "docker.io" + "/";
    Regroup(img.instance, img.namespace, last, container);
    assert shown == img.instance + "/" + img.namespace + "/" + last;
    if ':' in last {
      DisplayTagged(img, last, shown);
    } else {
      DisplayUntagged(img, last, shown);
    }
  }

  /** The components can be parsed back from the display form when none of
      them holds a `/` and the name holds no `:`. */
  ghost predicate WellFormed(img: ContainerImage) {
    && '/' !in img.instance && '/' !in img.namespace && '/' !in img.name && '/' !in img.tag
    && ':' !in img.name
    && img.digest.None? && img.signature.None?
  }

  /** Parse of a reference whose three segments are known. */
  lemma ParseThree(container: string, instance: string, namespace: string, name: string, tag: string)
    requires Split(container, '/') == [instance, namespace, name + ":" + tag]
    requires ':' !in name
    ensures Parse(container) == Ok(ContainerImage(namespace, name, instance, tag, None, None))
  {
    SplitOnceUnique(name + ":" + tag, ':', name, tag);
  }

  lemma ParseDisplay(img: ContainerImage)
    requires WellFormed(img)
    ensures Parse(Display(img)) == Ok(img)
  {
    var last := img.name + ":" + img.tag;
    var parts := [img.instance, img.namespace, last];
    assert SeparatorFree(parts, '/');
    JoinThree(parts, '/');
    assert Join(parts, '/') == Display(img);
    SplitJoin(parts, '/');
    ParseThree(Display(img), img.instance, img.namespace, img.name, img.tag);
  }

  /** Parse of a reference that is one segment. */
  lemma ParseOne(container: string, name: string, tag: string)
    requires Split(container, '/') == [name + ":" + tag]
    requires ':' !in name
    ensures Parse(container) == Ok(ContainerImage("_", name, "docker.io", tag, None, None))
  {
    SplitOnceUnique(name + ":" + tag, ':', name, tag);
  }

  /** `gitea:latest` parses with the default namespace `_`, not the empty
      namespace the unit test beside the parser expects. */
  lemma ParseBareName()
    ensures Parse("gitea:latest") == Ok(ContainerImage("_", "gitea", "docker.io", "latest", None, None))
  {
    var name, tag := "gitea", "latest";
    var container := name + ":" + tag;
    assert container == "gitea:latest";
    assert ':' !in name;
    assert '/' !in container by {
      assert forall i :: 0 <= i < |container| ==> container[i] != '/';
    }
    SplitSeparatorFree(container, '/');
    ParseOne(container, name, tag);
  }

  /** Parse of a three-segment reference without a tag. */
  lemma ParseThreeUntagged(container: string, instance: string, namespace: string, name: string)
    requires Split(container, '/') == [instance, namespace, name]
    requires ':' !in name
    ensures Parse(container) == Ok(ContainerImage(namespace, name, instance, "latest", None, None))
  {
  }
}

=== FILE: report.dfy ===
/**
  The grouped listing of the `compose` command in `src/main.rs`: the older
  rule set runs over every manifest found, the alerts are concatenated in
  file order, and each alert that passes the severity filter is printed as
  one line, preceded by a path header whenever its path differs from the
  last printed path. Printing is modelled as the sequence of events it
  would write; styling and centring are left to the colour tier.
 */
module Report {
  import opened Seqs
  import opened Security
  import ComposeSpec
  import ComposeRules

  /** The colour a severity is printed in. */
  datatype Tier = Red | Yellow | Green

  /** Critical and High are red, Medium and Low yellow, the rest green. */
  function TierOf(s: Severity): (t: Tier)
    ensures t == Red <==> Rank(s) <= Rank(High)
    ensures t == Yellow <==> Rank(Medium) <= Rank(s) <= Rank(Low)
    ensures t == Green <==> Rank(s) >= Rank(Information)
  {
    match s
    case Critical => Red
    case High => Red
    case Medium => Yellow
    case Low => Yellow
    case _ => Green
  }

  /** One printed item: a path header, or one alert's line. */
  datatype Event =
    | Header(location: AlertLocation)
    | Line(severity: Severity, tier: Tier, details: string)

  function LineOf(a: Alert): Event {
    Line(a.severity, TierOf(a.severity), a.details)
  }

  /** The alerts of every manifest, file by file, each in rule order. */
  function Scan(files: seq<ComposeSpec.ComposeFile>): seq<Alert> {
    ConcatMap(files, ComposeRules.Checks)
  }

  /** Scanning one more manifest appends its alerts after the others'. */
  lemma ScanAppend(files: seq<ComposeSpec.ComposeFile>, file: ComposeSpec.ComposeFile)
    ensures Scan(files + [file]) == Scan(files) + ComposeRules.Checks(file)
  {
    ConcatMapAppend(files, [file], ComposeRules.Checks);
  }

  /** The listing from `current`, the last printed path; `passes` is
      `Severity::filter` for the requested threshold. */
  function ListingFrom(alerts: seq<Alert>, passes: Severity -> bool, current: string): seq<Event>
    decreases |alerts|
  {
    if |alerts| == 0 then []
    else
      var a := alerts[0];
      if !passes(a.severity) then ListingFrom(alerts[1..], passes, current)
      else
        (if current != a.location.path then [Header(a.location)] else [])
        + [LineOf(a)]
        + ListingFrom(alerts[1..], passes, a.location.path)
  }

  /** The listing; the last printed path starts out empty. */
  function Listing(alerts: seq<Alert>, passes: Severity -> bool): seq<Event> {
    ListingFrom(alerts, passes, "")
  }

  /** The loop of the `compose` command. */
  method PrintListing(alerts: seq<Alert>, passes: Severity -> bool) returns (events: seq<Event>)
    ensures events == Listing(alerts, passes)
  {
    events := [];
    var current := "";
    for i := 0 to |alerts|
      invariant events + ListingFrom(alerts[i..], passes, current) == Listing(alerts, passes)
    {
      var result := alerts[i];
      ghost var before := events;
      assert alerts[i..][0] == result && alerts[i..][1..] == alerts[i + 1..];
      if !passes(result.severity) {
        assert ListingFrom(alerts[i..], passes, current) == ListingFrom(alerts[i + 1..], passes, current);
        continue;
      }
      var printed := (if current != result.location.path then [Header(result.location)] else []) + [LineOf(result)];
      assert ListingFrom(alerts[i..], passes, current)
          == printed + ListingFrom(alerts[i + 1..], passes, result.location.path);
      if current != result.location.path {
        events := events + [Header(result.location)];
        current := result.location.path;
      }
      events := events + [LineOf(result)];
      assert events == before + printed;
    }
  }

  // ---------------------------------------------------------------- reference

  predicate Printed(passes: Severity -> bool, a: Alert) {
    passes(a.severity)
  }

  /** The alerts that pass the filter, in order. */
  function Shown(alerts: seq<Alert>, passes: Severity -> bool): seq<Alert> {
    Filter(alerts, (a: Alert) => Printed(passes, a))
  }

  /** Each shown alert with the path printed just before it: `previous`
      for the first, the preceding shown alert's path after that. */
  function WithPrevious(shown: seq<Alert>, previous: string): (r: seq<(string, Alert)>)
    ensures |r| == |shown|
    ensures forall k :: 0 <= k < |r| ==> r[k].1 == shown[k]
    ensures |r| > 0 ==> r[0].0 == previous
    ensures forall k :: 0 < k < |r| ==> r[k].0 == shown[k - 1].location.path
    decreases |shown|
  {
    if |shown| == 0 then []
    else
      var rest := WithPrevious(shown[1..], shown[0].location.path);
      var r := [(previous, shown[0])] + rest;
      assert forall k :: 0 < k < |r| ==> r[k] == rest[k - 1];
      r
  }

  /** A header when the path changes, then the line. */
  function EventsOf(entry: (string, Alert)): seq<Event> {
    (if entry.0 != entry.1.location.path then [Header(entry.1.location)] else []) + [LineOf(entry.1)]
  }

  /** The listing is, for each shown alert in order, a header exactly when
      its path differs from the previously printed path, then its line. */
  lemma {:induction false} ListingFromIsGrouped(alerts: seq<Alert>, passes: Severity -> bool, current: string)
    ensures ListingFrom(alerts, passes, current) == ConcatMap(WithPrevious(Shown(alerts, passes), current), EventsOf)
    decreases |alerts|
  {
    if |alerts| != 0 {
      var a := alerts[0];
      var p := (x: Alert) => Printed(passes, x);
      assert Shown(alerts, passes) == (if p(a) then [a] else []) + Shown(alerts[1..], passes);
      if passes(a.severity) {
        ListingFromIsGrouped(alerts[1..], passes, a.location.path);
        var shown := Shown(alerts, passes);
        assert shown[0] == a && shown[1..] == Shown(alerts[1..], passes);
      } else {
        ListingFromIsGrouped(alerts[1..], passes, current);
        assert Shown(alerts, passes) == Shown(alerts[1..], passes);
      }
    }
  }

  lemma ListingIsGrouped(alerts: seq<Alert>, passes: Severity -> bool)
    ensures Listing(alerts, passes) == ConcatMap(WithPrevious(Shown(alerts, passes), ""), EventsOf)
  {
    ListingFromIsGrouped(alerts, passes, "");
  }

  /** Only the line events: one per alert that passes the filter, in order;
      a filtered alert neither prints nor changes the current path. */
  function Lines(events: seq<Event>): seq<Event> {
    Filter(events, (e: Event) => e.Line?)
  }

  lemma {:induction false} LinesOfListingFrom(alerts: seq<Alert>, passes: Severity -> bool, current: string)
    ensures Lines(ListingFrom(alerts, passes, current)) == Map(Shown(alerts, passes), LineOf)
    decreases |alerts|
  {
    if |alerts| != 0 {
      var a := alerts[0];
      var p := (x: Alert) => Printed(passes, x);
      var q := (e: Event) => e.Line?;
      assert Shown(alerts, passes) == (if p(a) then [a] else []) + Shown(alerts[1..], passes);
      if passes(a.severity) {
        var next := a.location.path;
        LinesOfListingFrom(alerts[1..], passes, next);
        var head: seq<Event> := (if current != next then [Header(a.location)] else []) + [LineOf(a)];
        FilterAppend(head, ListingFrom(alerts[1..], passes, next), q);
        assert Lines(head) == [LineOf(a)] by {
          if current != next {
            assert head == [Header(a.location)] + [LineOf(a)];
            FilterAppend([Header(a.location)], [LineOf(a)], q);
          }
        }
        MapAppend([a], Shown(alerts[1..], passes), LineOf);
      } else {
        LinesOfListingFrom(alerts[1..], passes, current);
        assert Shown(alerts, passes) == Shown(alerts[1..], passes);
      }
    }
  }

  /** Every alert that passes the filter prints exactly one line, in input
      order, and no other lines are printed. */
  lemma ListingLines(alerts: seq<Alert>, passes: Severity -> bool)
    ensures Lines(Listing(alerts, passes)) == Map(Shown(alerts, passes), LineOf)
    ensures |Lines(Listing(alerts, passes))| == |Shown(alerts, passes)|
  {
    LinesOfListingFrom(alerts, passes, "");
  }

  /** Alerts of one path in a row share the first one's header: the second
      prints no header of its own. */
  lemma ConsecutiveSamePath(alerts: seq<Alert>, passes: Severity -> bool, k: nat)
    requires 0 < k < |Shown(alerts, passes)|
    requires Shown(alerts, passes)[k].location.path == Shown(alerts, passes)[k - 1].location.path
    ensures WithPrevious(Shown(alerts, passes), "")[k].0 == WithPrevious(Shown(alerts, passes), "")[k].1.location.path
    ensures EventsOf(WithPrevious(Shown(alerts, passes), "")[k]) == [LineOf(Shown(alerts, passes)[k])]
  {
  }

  /** Because the last printed path starts empty, a first printed alert with
      an empty path (one carrying the default location) gets no header. */
  lemma LeadingEmptyPathHasNoHeader(alerts: seq<Alert>, passes: Severity -> bool)
    requires |Shown(alerts, passes)| > 0 && Shown(alerts, passes)[0].location.path == ""
    ensures |Listing(alerts, passes)| > 0 && Listing(alerts, passes)[0] == LineOf(Shown(alerts, passes)[0])
  {
    ListingIsGrouped(alerts, passes);
    var pairs := WithPrevious(Shown(alerts, passes), "");
    assert ConcatMap(pairs, EventsOf) == EventsOf(pairs[0]) + ConcatMap(pairs[1..], EventsOf);
  }
}

=== FILE: rule_all.dfy ===
/**
  The three per-service hardening rules of `src/rules/all.rs`: privileged
  containers, the `no-new-privileges` security option, and extra kernel
  parameters (sysctls and added capabilities).

  The security-option messages embed the service's display text; how a
  service displays is not part of this model, so it is the parameter `show`.
 */
module AllRules {
  import opened Wrappers
  import opened Strings
  import opened Seqs
  import opened Security
  import opened Configuration
  import opened Compose

  // ---------------------------------------------------------------- privileged

  /** The alert for a privileged service: the file, but no line. */
  function PrivilegedAlert(file: ComposeFile): Alert {
    Alert("Container privilege enabled", High, Quibble("PRIVILEGED_CONTAINER"), AlertLocation(file.path, None))
  }

  predicate IsPrivileged(entry: (string, Service)) {
    entry.1.privileged == Some(true)
  }

  function PrivilegedStep(file: ComposeFile): ((string, Service)) -> seq<Alert> {
    (entry: (string, Service)) => if entry.1.privileged == Some(true) then [PrivilegedAlert(file)] else []
  }

  /** `privileged`: the services in map order. */
  function Privileged(config: Config, file: ComposeFile): seq<Alert> {
    ConcatMap(file.compose.services, PrivilegedStep(file))
  }

  function PrivilegedAlertOf(file: ComposeFile): ((string, Service)) -> Alert {
    (entry: (string, Service)) => PrivilegedAlert(file)
  }

  /** One alert per service with `privileged: true`; `false` or an absent
      field raises nothing. */
  lemma PrivilegedOnePerService(config: Config, file: ComposeFile)
    ensures Privileged(config, file) == Map(Filter(file.compose.services, IsPrivileged), PrivilegedAlertOf(file))
    ensures |Privileged(config, file)| == |Filter(file.compose.services, IsPrivileged)|
    ensures forall a :: a in Privileged(config, file) ==> a == PrivilegedAlert(file)
  {
    ConcatMapSingletons(file.compose.services, PrivilegedStep(file), IsPrivileged, PrivilegedAlertOf(file));
  }

  // ----------------------------------------------------------- security_opts

  const NoNewPrivileges: string := "no-new-privileges"

  /** An option that switches `no-new-privileges` off. */
  predicate DisablesNoNewPrivileges(opt: string) {
    StartsWith(opt, NoNewPrivileges) && EndsWith(opt, "false")
  }

  /** The alert for a service that lists options but turns the protection
      off, on the line of its `security_opt` key. */
  function SetFalseAlert(file: ComposeFile, name: string, shown: string): Alert {
    Alert("Security Opts `no-new-privileges` set to `false` for '" + shown + "'", High, Quibble("SECURITY_OPTS"),
          AlertLocation(file.path, MappingLine(file, FieldKey(name, "security_opt"))))
  }

  /** The alert for a service with no `security_opt` at all, on the line of
      the service's own key. */
  function NotSetAlert(file: ComposeFile, name: string, shown: string): Alert {
    Alert("Security Opts `no-new-privileges` not set for '" + shown + "'", High, Quibble("SECURITY_OPTS"),
          AlertLocation(file.path, MappingLine(file, ServiceKey(name))))
  }

  /** The loop over a service's options: one alert per disabling option. */
  function WeakOptionAlerts(opts: seq<string>, alert: Alert): (alerts: seq<Alert>)
    ensures |alerts| == |Filter(opts, DisablesNoNewPrivileges)|
    ensures forall a :: a in alerts ==> a == alert
    ensures alerts == [] <==> forall opt :: opt in opts ==> !DisablesNoNewPrivileges(opt)
  {
    if |opts| == 0 then []
    else
      var rest := WeakOptionAlerts(opts[1..], alert);
      assert Filter(opts, DisablesNoNewPrivileges)
          == (if DisablesNoNewPrivileges(opts[0]) then [opts[0]] else []) + Filter(opts[1..], DisablesNoNewPrivileges);
      assert forall opt :: opt in opts <==> opt == opts[0] || opt in opts[1..];
      (if DisablesNoNewPrivileges(opts[0]) then [alert] else []) + rest
  }

  /** The rule's body for one service. */
  function ServiceSecurityOptAlerts(file: ComposeFile, name: string, service: Service, show: Service -> string): (alerts: seq<Alert>)
    ensures service.securityOpt.None? ==> alerts == [NotSetAlert(file, name, show(service))]
    ensures service.securityOpt.Some? ==>
      |alerts| == |Filter(service.securityOpt.value, DisablesNoNewPrivileges)| &&
      forall a :: a in alerts ==> a == SetFalseAlert(file, name, show(service))
    ensures forall a :: a in alerts ==> a.severity == High && a.id == Quibble("SECURITY_OPTS")
  {
    match service.securityOpt
    case Some(opts) => WeakOptionAlerts(opts, SetFalseAlert(file, name, show(service)))
    case None => [NotSetAlert(file, name, show(service))]
  }

  function SecurityOptStep(file: ComposeFile, show: Service -> string): ((string, Service)) -> seq<Alert> {
    (entry: (string, Service)) => ServiceSecurityOptAlerts(file, entry.0, entry.1, show)
  }

  /** `security_opts`: the services in map order. */
  function SecurityOpts(config: Config, file: ComposeFile, show: Service -> string): seq<Alert> {
    ConcatMap(file.compose.services, SecurityOptStep(file, show))
  }

  /** Options that only enable the protection (`no-new-privileges:true`)
      leave the service silent; leaving the field out does not. */
  lemma SecurityOptsSilentOnlyWhenSet(file: ComposeFile, name: string, service: Service, show: Service -> string)
    ensures ServiceSecurityOptAlerts(file, name, service, show) == [] <==>
      service.securityOpt.Some? &&
      forall opt :: opt in service.securityOpt.value ==> !DisablesNoNewPrivileges(opt)
  {
  }

  /** Every service without a `security_opt` field is reported, and every
      alert of the rule is High. */
  lemma SecurityOptsReportsUnset(config: Config, file: ComposeFile, show: Service -> string, name: string, service: Service)
    requires (name, service) in file.compose.services && service.securityOpt.None?
    ensures NotSetAlert(file, name, show(service)) in SecurityOpts(config, file, show)
  {
    ConcatMapIncludes(file.compose.services, SecurityOptStep(file, show), (name, service), NotSetAlert(file, name, show(service)));
  }

  lemma SecurityOptsAllHigh(config: Config, file: ComposeFile, show: Service -> string, a: Alert)
    requires a in SecurityOpts(config, file, show)
    ensures a.severity == High && a.id == Quibble("SECURITY_OPTS") && a.location.path == file.path
  {
    ConcatMapMember(file.compose.services, SecurityOptStep(file, show), a);
  }

  // ------------------------------------------------------- kernel_parameters

  const Ipv4AllPrefix: string := "net.ipv4.conf.all"

  /** The sysctl names the rule inspects: the string items of a list (numbers
      and nulls skipped), or every key of a mapping. */
  function SysctlNames(sysctls: ListOrHashMap): (names: seq<string>)
    ensures sysctls.Hash? ==> |names| == |sysctls.entries|
    ensures sysctls.Hash? ==> forall i :: 0 <= i < |names| ==> names[i] == sysctls.entries[i].0
    ensures sysctls.Vec? ==> names == Map(Filter(sysctls.items, IsStr), TextOf)
    ensures sysctls.Vec? ==> |names| <= |sysctls.items|
    ensures sysctls.Vec? ==> forall s :: s in names <==> Str(s) in sysctls.items
  {
    match sysctls
    case Vec(items) => StringItems(items)
    case Hash(entries) => Map(entries, (entry: (string, StringOrNumber)) => entry.0)
  }

  predicate IsStr(item: StringOrNumber) {
    item.Str?
  }

  /** The text of a string item; other items have none. */
  function TextOf(item: StringOrNumber): string {
    match item
    case Str(text) => text
    case _ => ""
  }

  /** The string items, in order and with repeats, the others skipped. */
  function StringItems(items: seq<StringOrNumber>): (names: seq<string>)
    ensures names == Map(Filter(items, IsStr), TextOf)
    ensures |names| <= |items|
    ensures forall s :: s in names <==> Str(s) in items
    decreases |items|
  {
    if |items| == 0 then []
    else
      var rest := StringItems(items[1..]);
      assert forall x :: x in items <==> x == items[0] || x in items[1..];
      assert Filter(items, IsStr) == (if IsStr(items[0]) then [items[0]] else []) + Filter(items[1..], IsStr);
      var names := (if items[0].Str? then [items[0].text] else []) + rest;
      MapAppend(if IsStr(items[0]) then [items[0]] else [], Filter(items[1..], IsStr), TextOf);
      names
  }

  /** The alert opening the sysctl findings; it has the default severity and
      the default, empty, location. */
  function SyscallsAlert(): Alert {
    Alert("Enabling extra syscalls", DefaultSeverity(), Quibble("KERNEL_PARAMETERS"), DefaultLocation())
  }

  function Ipv4Alert(file: ComposeFile, name: string): Alert {
    Alert("IPv4 Kernel Parameters modified: " + name, Information, Quibble("KERNEL_PARAMETERS"),
          AlertLocation(file.path, None))
  }

  /** `syscall_check` */
  function SyscallCheck(file: ComposeFile, name: string): seq<Alert> {
    if StartsWith(name, Ipv4AllPrefix) then [Ipv4Alert(file, name)] else []
  }

  function SyscallStep(file: ComposeFile): string -> seq<Alert> {
    (name: string) => SyscallCheck(file, name)
  }

  predicate IsIpv4All(name: string) {
    StartsWith(name, Ipv4AllPrefix)
  }

  function Ipv4AlertOf(file: ComposeFile): string -> Alert {
    (name: string) => Ipv4Alert(file, name)
  }

  /** The findings of the sysctl loop: one Information alert per inspected
      name under `net.ipv4.conf.all`, in order, and nothing for the rest. */
  function SysctlAlerts(file: ComposeFile, sysctls: ListOrHashMap): (alerts: seq<Alert>)
    ensures alerts == Map(Filter(SysctlNames(sysctls), IsIpv4All), Ipv4AlertOf(file))
  {
    ConcatMapSingletons(SysctlNames(sysctls), SyscallStep(file), IsIpv4All, Ipv4AlertOf(file));
    ConcatMap(SysctlNames(sysctls), SyscallStep(file))
  }

  /** The alert opening the capability findings; default severity and location. */
  function ExtraParametersAlert(): Alert {
    Alert("Using extra Kernel Parameters", DefaultSeverity(), Quibble("KERNEL_PARAMETERS"), DefaultLocation())
  }

  function NetAdminAlert(file: ComposeFile): Alert {
    Alert("Container with high networking privileages", Medium, Quibble("NET_ADMIN"), AlertLocation(file.path, None))
  }

  function SysAdminAlert(file: ComposeFile): Alert {
    Alert("Container with high system privileages", Medium, Quibble("SYS_ADMIN"), AlertLocation(file.path, None))
  }

  function AllCapabilitiesAlert(file: ComposeFile): Alert {
    Alert("All capabilities are enabled", High, Quibble("ALL"), AlertLocation(file.path, None))
  }

  /** The three substring tests on one added capability, in the order
      `kernel_parameters` makes them. */
  function CapabilityCheck(file: ComposeFile, cap: string): (alerts: seq<Alert>)
    ensures NetAdminAlert(file) in alerts <==> Contains(cap, "NET_ADMIN")
    ensures SysAdminAlert(file) in alerts <==> Contains(cap, "SYS_ADMIN")
    ensures AllCapabilitiesAlert(file) in alerts <==> Contains(cap, "ALL")
    ensures forall a :: a in alerts ==> a in [NetAdminAlert(file), SysAdminAlert(file), AllCapabilitiesAlert(file)]
    ensures |alerts| == (if Contains(cap, "NET_ADMIN") then 1 else 0) + (if Contains(cap, "SYS_ADMIN") then 1 else 0)
                        + (if Contains(cap, "ALL") then 1 else 0)
  {
    (if Contains(cap, "NET_ADMIN") then [NetAdminAlert(file)] else [])
    + (if Contains(cap, "SYS_ADMIN") then [SysAdminAlert(file)] else [])
    + (if Contains(cap, "ALL") then [AllCapabilitiesAlert(file)] else [])
  }

  function CapabilityStep(file: ComposeFile): string -> seq<Alert> {
    (cap: string) => CapabilityCheck(file, cap)
  }

  /** The findings of the capability loop, capability by capability. */
  function CapabilityAlerts(file: ComposeFile, caps: seq<string>): (alerts: seq<Alert>)
    ensures forall a :: a in alerts ==> a in [NetAdminAlert(file), SysAdminAlert(file), AllCapabilitiesAlert(file)]
  {
    var alerts := ConcatMap(caps, CapabilityStep(file));
    forall a | a in alerts ensures a in [NetAdminAlert(file), SysAdminAlert(file), AllCapabilitiesAlert(file)] {
      ConcatMapMember(caps, CapabilityStep(file), a);
    }
    alerts
  }

  /** The rule's body for one service: with `sysctls`, the syscalls alert
      and then the sysctl findings; after that, with `cap_add` (whether or
      not `sysctls` is there), the extra-parameters alert and then the
      capability findings. */
  function ServiceKernelAlerts(file: ComposeFile, service: Service): (alerts: seq<Alert>)
    ensures |alerts| ==
      (if service.sysctls.Some? then 1 + |SysctlAlerts(file, service.sysctls.value)| else 0) +
      (if service.capAdd.Some? then 1 + |CapabilityAlerts(file, service.capAdd.value)| else 0)
    ensures service.sysctls.Some? ==>
      alerts[0] == SyscallsAlert() &&
      alerts[1..1 + |SysctlAlerts(file, service.sysctls.value)|] == SysctlAlerts(file, service.sysctls.value)
    ensures service.capAdd.Some? ==>
      var k := |alerts| - |CapabilityAlerts(file, service.capAdd.value)|;
      alerts[k - 1] == ExtraParametersAlert() && alerts[k..] == CapabilityAlerts(file, service.capAdd.value)
    ensures service.sysctls.None? && service.capAdd.None? ==> alerts == []
  {
    var sysPart := match service.sysctls
      case Some(sysctls) => [SyscallsAlert()] + SysctlAlerts(file, sysctls)
      case None => [];
    var capPart := match service.capAdd
      case Some(caps) => [ExtraParametersAlert()] + CapabilityAlerts(file, caps)
      case None => [];
    AppendSlices(sysPart, capPart);
    sysPart + capPart
  }

  function KernelStep(file: ComposeFile): ((string, Service)) -> seq<Alert> {
    (entry: (string, Service)) => ServiceKernelAlerts(file, entry.1)
  }

  /** `kernel_parameters`: the services in map order. */
  function KernelParameters(config: Config, file: ComposeFile): seq<Alert> {
    ConcatMap(file.compose.services, KernelStep(file))
  }

  /** Every alert of one service is one of the two openers, a sysctl
      finding or a capability finding. */
  lemma ServiceKernelAlertKinds(file: ComposeFile, service: Service, a: Alert)
    requires a in ServiceKernelAlerts(file, service)
    ensures a == SyscallsAlert() || a == ExtraParametersAlert()
      || (service.sysctls.Some? && a in SysctlAlerts(file, service.sysctls.value))
      || (service.capAdd.Some? && a in CapabilityAlerts(file, service.capAdd.value))
  {
  }

  /** The only High alert the rule raises is the one for `ALL`; every other
      alert is Medium (`NET_ADMIN`, `SYS_ADMIN`) or Information. */
  lemma KernelSeverities(config: Config, file: ComposeFile, a: Alert)
    requires a in KernelParameters(config, file)
    ensures a.severity == High <==> a == AllCapabilitiesAlert(file)
    ensures a.severity in {High, Medium, Information}
  {
    ConcatMapMember(file.compose.services, KernelStep(file), a);
    var entry :| entry in file.compose.services && a in ServiceKernelAlerts(file, entry.1);
    ServiceKernelSeverity(file, entry.1, a);
  }

  lemma ServiceKernelSeverity(file: ComposeFile, service: Service, a: Alert)
    requires a in ServiceKernelAlerts(file, service)
    ensures a.severity == High <==> a == AllCapabilitiesAlert(file)
    ensures a.severity in {High, Medium, Information}
  {
    ServiceKernelAlertKinds(file, service, a);
    if a == SyscallsAlert() || a == ExtraParametersAlert() {
      assert a.severity == Information;
    } else if service.sysctls.Some? && a in SysctlAlerts(file, service.sysctls.value) {
      SysctlAlertIsIpv4(file, service.sysctls.value, a);
    } else {
      assert a in [NetAdminAlert(file), SysAdminAlert(file), AllCapabilitiesAlert(file)];
    }
  }

  lemma SysctlAlertIsIpv4(file: ComposeFile, sysctls: ListOrHashMap, a: Alert)
    requires a in SysctlAlerts(file, sysctls)
    ensures exists name :: a == Ipv4Alert(file, name)
  {
    var found := SysctlAlerts(file, sysctls);
    var i :| 0 <= i < |found| && found[i] == a;
    assert a == Ipv4Alert(file, Filter(SysctlNames(sysctls), IsIpv4All)[i]);
  }

  /** A service with `cap_add` always gets the extra-parameters alert, with
      or without `sysctls`. */
  lemma CapabilityHeaderPresent(config: Config, file: ComposeFile, name: string, service: Service)
    requires (name, service) in file.compose.services && service.capAdd.Some?
    ensures ExtraParametersAlert() in KernelParameters(config, file)
  {
    var alerts := ServiceKernelAlerts(file, service);
    var k := |alerts| - |CapabilityAlerts(file, service.capAdd.value)|;
    assert alerts[k - 1] == ExtraParametersAlert();
    ConcatMapIncludes(file.compose.services, KernelStep(file), (name, service), ExtraParametersAlert());
  }

  /** A service adding a capability whose name contains `ALL` is reported
      High. */
  lemma AllCapabilitiesFlagged(config: Config, file: ComposeFile, name: string, service: Service, cap: string)
    requires (name, service) in file.compose.services
    requires service.capAdd.Some? && cap in service.capAdd.value && Contains(cap, "ALL")
    ensures AllCapabilitiesAlert(file) in KernelParameters(config, file)
  {
    var caps := service.capAdd.value;
    ConcatMapIncludes(caps, CapabilityStep(file), cap, AllCapabilitiesAlert(file));
    var alerts := ServiceKernelAlerts(file, service);
    var k := |alerts| - |CapabilityAlerts(file, caps)|;
    assert AllCapabilitiesAlert(file) in alerts[k..];
    ConcatMapIncludes(file.compose.services, KernelStep(file), (name, service), AllCapabilitiesAlert(file));
  }

  /** A listed sysctl under `net.ipv4.conf.all` is reported by name. */
  lemma Ipv4SysctlFlagged(config: Config, file: ComposeFile, name: string, service: Service, sysctl: string)
    requires (name, service) in file.compose.services
    requires service.sysctls.Some? && sysctl in SysctlNames(service.sysctls.value)
    requires StartsWith(sysctl, Ipv4AllPrefix)
    ensures Ipv4Alert(file, sysctl) in KernelParameters(config, file)
  {
    var sysctls := service.sysctls.value;
    ConcatMapIncludes(SysctlNames(sysctls), SyscallStep(file), sysctl, Ipv4Alert(file, sysctl));
    var alerts := ServiceKernelAlerts(file, service);
    assert Ipv4Alert(file, sysctl) in alerts[1..1 + |SysctlAlerts(file, sysctls)|];
    ConcatMapIncludes(file.compose.services, KernelStep(file), (name, service), Ipv4Alert(file, sysctl));
  }
}

=== FILE: rule_environment.dfy ===
/**
  The environment-variable rule (`src/rules/environment.rs`): every
  variable a service sets is checked by its key; a key naming `DEBUG` is
  reported as debugging left enabled, and a key naming `PASSWORD`, `KEY`
  or `TOKEN` as a possibly hard-coded secret.
 */
module EnvironmentRule {
  import opened Wrappers
  import opened Strings
  import opened Seqs
  import opened Security
  import opened Configuration
  import opened Compose

  predicate MentionsDebug(key: string) {
    Contains(key, "DEBUG")
  }

  predicate MentionsSecret(key: string) {
    Contains(key, "PASSWORD") || Contains(key, "KEY") || Contains(key, "TOKEN")
  }

  /** The line of `services.<name>.environment.<key>`. */
  function VariableLocation(file: ComposeFile, name: string, key: string): AlertLocation {
    AlertLocation(file.path, MappingLine(file, FieldKey(name, "environment") + "." + key))
  }

  function DebugAlert(file: ComposeFile, name: string, key: string): Alert {
    Alert("Debugging enabled in the container", Medium, Cwe("1244"), VariableLocation(file, name, key))
  }

  function SecretAlert(file: ComposeFile, name: string, key: string): Alert {
    Alert("Possible Hardcoded password", Low, Cwe("215"), VariableLocation(file, name, key))
  }

  /** `check_environment`: the debug alert, then the secret alert, each
      only when its key test holds; the value is not looked at. */
  function CheckEnvironment(file: ComposeFile, name: string, key: string): (alerts: seq<Alert>)
    ensures DebugAlert(file, name, key) in alerts <==> MentionsDebug(key)
    ensures SecretAlert(file, name, key) in alerts <==> MentionsSecret(key)
    ensures forall a :: a in alerts ==> a == DebugAlert(file, name, key) || a == SecretAlert(file, name, key)
    ensures |alerts| <= 2
    ensures |alerts| == 2 ==> alerts[0].severity == Medium && alerts[1].severity == Low
  {
    (if MentionsDebug(key) then [DebugAlert(file, name, key)] else [])
    + (if MentionsSecret(key) then [SecretAlert(file, name, key)] else [])
  }

  function CheckStep(file: ComposeFile, name: string): string -> seq<Alert> {
    (key: string) => CheckEnvironment(file, name, key)
  }

  /** A list entry is checked when it is a string holding `=`, under the
      text before the first `=`; numbers and nulls are skipped. */
  function ItemKey(item: StringOrNumber): (keys: seq<string>)
    ensures |keys| <= 1
    ensures |keys| == 1 <==> item.Str? && '=' in item.text
    ensures |keys| == 1 ==> item.text == keys[0] + "=" + SplitOnce(item.text, '=').value.1 && '=' !in keys[0]
  {
    match item
    case Str(text) =>
      (match SplitOnce(text, '=')
       case Some(pair) => [pair.0]
       case None => [])
    case _ => []
  }

  /** A mapping entry is checked under its key when its value is a string. */
  function EntryKey(entry: (string, StringOrNumber)): seq<string> {
    match entry.1
    case Str(_) => [entry.0]
    case _ => []
  }

  /** The keys the rule checks, in the order it checks them. */
  function CheckedKeys(env: ListOrHashMap): seq<string> {
    match env
    case Vec(items) => ConcatMap(items, ItemKey)
    case Hash(entries) => ConcatMap(entries, EntryKey)
  }

  function ItemStep(file: ComposeFile, name: string): StringOrNumber -> seq<Alert> {
    (item: StringOrNumber) =>
      match item
      case Str(text) =>
        (match SplitOnce(text, '=')
         case Some(pair) => CheckEnvironment(file, name, pair.0)
         case None => [])
      case _ => []
  }

  function EntryStep(file: ComposeFile, name: string): ((string, StringOrNumber)) -> seq<Alert> {
    (entry: (string, StringOrNumber)) =>
      match entry.1
      case Str(_) => CheckEnvironment(file, name, entry.0)
      case _ => []
  }

  /** The loop over one service's `environment`, as `environment_variables` iterates it. */
  function ServiceEnvironmentAlerts(file: ComposeFile, name: string, service: Service): seq<Alert> {
    match service.environment
    case None => []
    case Some(Vec(items)) => ConcatMap(items, ItemStep(file, name))
    case Some(Hash(entries)) => ConcatMap(entries, EntryStep(file, name))
  }

  /** Both shapes of `environment` amount to checking the collected keys in order. */
  lemma ServiceAlertsAreCheckedKeys(file: ComposeFile, name: string, service: Service)
    ensures service.environment.None? ==> ServiceEnvironmentAlerts(file, name, service) == []
    ensures service.environment.Some? ==>
      ServiceEnvironmentAlerts(file, name, service)
      == ConcatMap(CheckedKeys(service.environment.value), CheckStep(file, name))
  {
    match service.environment
    case None =>
    case Some(Vec(items)) =>
      forall item | item in items
        ensures ItemStep(file, name)(item) == ConcatMap(ItemKey(item), CheckStep(file, name))
      {
        var keys := ItemKey(item);
        if |keys| == 1 {
          assert ConcatMap(keys, CheckStep(file, name)) == CheckEnvironment(file, name, keys[0]) + ConcatMap(keys[1..], CheckStep(file, name));
        }
      }
      ConcatMapFuse(items, ItemStep(file, name), ItemKey, CheckStep(file, name));
    case Some(Hash(entries)) =>
      forall entry | entry in entries
        ensures EntryStep(file, name)(entry) == ConcatMap(EntryKey(entry), CheckStep(file, name))
      {
        var keys := EntryKey(entry);
        if |keys| == 1 {
          assert ConcatMap(keys, CheckStep(file, name)) == CheckEnvironment(file, name, keys[0]) + ConcatMap(keys[1..], CheckStep(file, name));
        }
      }
      ConcatMapFuse(entries, EntryStep(file, name), EntryKey, CheckStep(file, name));
  }

  function EnvironmentStep(file: ComposeFile): ((string, Service)) -> seq<Alert> {
    (entry: (string, Service)) => ServiceEnvironmentAlerts(file, entry.0, entry.1)
  }

  /** `environment_variables`: the services in map order. */
  function EnvironmentVariables(config: Config, file: ComposeFile): seq<Alert> {
    ConcatMap(file.compose.services, EnvironmentStep(file))
  }

  /** A checked key that names `DEBUG` raises the Medium CWE-1244 alert on
      that variable's line; one that names a secret raises the Low CWE-215 alert. */
  lemma CheckedKeyReported(config: Config, file: ComposeFile, name: string, service: Service, key: string)
    requires (name, service) in file.compose.services
    requires service.environment.Some? && key in CheckedKeys(service.environment.value)
    ensures MentionsDebug(key) ==> DebugAlert(file, name, key) in EnvironmentVariables(config, file)
    ensures MentionsSecret(key) ==> SecretAlert(file, name, key) in EnvironmentVariables(config, file)
  {
    ServiceAlertsAreCheckedKeys(file, name, service);
    var perService := ServiceEnvironmentAlerts(file, name, service);
    assert perService == EnvironmentStep(file)((name, service));
    if MentionsDebug(key) {
      ConcatMapIncludes(CheckedKeys(service.environment.value), CheckStep(file, name), key, DebugAlert(file, name, key));
      ConcatMapIncludes(file.compose.services, EnvironmentStep(file), (name, service), DebugAlert(file, name, key));
    }
    if MentionsSecret(key) {
      ConcatMapIncludes(CheckedKeys(service.environment.value), CheckStep(file, name), key, SecretAlert(file, name, key));
      ConcatMapIncludes(file.compose.services, EnvironmentStep(file), (name, service), SecretAlert(file, name, key));
    }
  }

  /** Every alert of the rule is the debug or the secret alert of some key
      the rule checked in some service. */
  lemma EnvironmentAlertOrigin(config: Config, file: ComposeFile, a: Alert)
    requires a in EnvironmentVariables(config, file)
    ensures exists name, service, key ::
      (name, service) in file.compose.services && service.environment.Some? &&
      key in CheckedKeys(service.environment.value) &&
      ((MentionsDebug(key) && a == DebugAlert(file, name, key)) ||
       (MentionsSecret(key) && a == SecretAlert(file, name, key)))
  {
    ConcatMapMember(file.compose.services, EnvironmentStep(file), a);
    var entry :| entry in file.compose.services && a in EnvironmentStep(file)(entry);
    var name, service := entry.0, entry.1;
    ServiceAlertsAreCheckedKeys(file, name, service);
    ConcatMapMember(CheckedKeys(service.environment.value), CheckStep(file, name), a);
    var key :| key in CheckedKeys(service.environment.value) && a in CheckEnvironment(file, name, key);
    assert (name, service) == entry;
  }

  /** A list entry `KEY=VALUE` is checked under `KEY`, and a mapping entry
      with a string value under its key. */
  lemma CheckedKeysOf(env: ListOrHashMap, key: string)
    ensures env.Vec? && (exists value :: Str(key + "=" + value) in env.items) && '=' !in key ==>
      key in CheckedKeys(env)
    ensures env.Hash? && (exists value :: (key, Str(value)) in env.entries) ==> key in CheckedKeys(env)
  {
    if env.Vec? && (exists value :: Str(key + "=" + value) in env.items) && '=' !in key {
      var value :| Str(key + "=" + value) in env.items;
      var text := key + "=" + value;
      SplitOnceUnique(text, '=', key, value);
      ConcatMapIncludes(env.items, ItemKey, Str(text), key);
    }
    if env.Hash? && (exists value :: (key, Str(value)) in env.entries) {
      var value :| (key, Str(value)) in env.entries;
      ConcatMapIncludes(env.entries, EntryKey, (key, Str(value)), key);
    }
  }
}

=== FILE: rule_images.dfy ===
/**
  The container-image rule (`src/rules/images.rs`): a build context is
  reported; an image reference is reported as an environment-variable
  reference, or else with its parsed form, and additionally as a rolling
  tag when the tag is `latest`, `main` or `master`.
 */
module ImagesRule {
  import opened Wrappers
  import opened Strings
  import opened Seqs
  import opened Security
  import opened Configuration
  import opened Containers
  import opened Compose

  const RollingTags: seq<string> := ["latest", "main", "master"]
  const Interpolation: string := "${"

  /** The build context a `build:` entry names, if any. */
  function BuildContextOf(build: StringOrBuild): Option<string> {
    match build
    case Context(path) => Some(path)
    case Build(context) => context
  }

  function BuildAlert(file: ComposeFile, name: string, context: string): Alert {
    Alert("Build context path: " + context, DefaultSeverity(), Quibble("BUILD_CONTEXT"),
          AlertLocation(file.path, MappingLine(file, FieldKey(name, "build"))))
  }

  /** The `build` half of the rule for one service. */
  function ServiceBuildAlerts(file: ComposeFile, name: string, service: Service): (alerts: seq<Alert>)
    ensures service.build.None? ==> alerts == []
    ensures service.build.Some? && service.build.value.Context? ==>
      alerts == [BuildAlert(file, name, service.build.value.path)]
    ensures service.build.Some? && service.build.value.Build? ==>
      alerts == (if service.build.value.context.Some? then [BuildAlert(file, name, service.build.value.context.value)] else [])
    ensures forall a :: a in alerts ==> a.severity == Information && a.id == Quibble("BUILD_CONTEXT")
  {
    match service.build
    case None => []
    case Some(build) =>
      match BuildContextOf(build)
      case Some(context) => [BuildAlert(file, name, context)]
      case None => []
  }

  function ImageLocation(file: ComposeFile, name: string): AlertLocation {
    AlertLocation(file.path, MappingLine(file, FieldKey(name, "image")))
  }

  function EnvVarAlert(file: ComposeFile, name: string, image: string): Alert {
    Alert("Container Image using Environment Variable: " + image, DefaultSeverity(), Quibble("IMAGE_ENV_VAR"),
          ImageLocation(file, name))
  }

  function TagAlert(file: ComposeFile, name: string, container: ContainerImage): Alert {
    Alert("Container Image: " + Display(container), DefaultSeverity(), Quibble("IMAGE_TAG"),
          ImageLocation(file, name))
  }

  function RollingTagAlert(file: ComposeFile, name: string, tag: string): Alert {
    Alert("Container using rolling release tag: `" + tag + "`", Medium, Quibble("IMAGE_TAG_LATEST"),
          ImageLocation(file, name))
  }

  /** The `image` half of the rule for one service. */
  function ServiceImageAlerts(file: ComposeFile, name: string, service: Service): (alerts: seq<Alert>)
    ensures service.image.None? ==> alerts == []
    ensures service.image.Some? && Contains(service.image.value, Interpolation) ==>
      alerts == [EnvVarAlert(file, name, service.image.value)]
    ensures service.image.Some? && !Contains(service.image.value, Interpolation) && ParseImage(service).Err? ==>
      alerts == []
    ensures service.image.Some? && !Contains(service.image.value, Interpolation) && ParseImage(service).Ok? ==>
      var container := ParseImage(service).value;
      && |alerts| == (if container.tag in RollingTags then 2 else 1)
      && alerts[0] == TagAlert(file, name, container)
      && (container.tag in RollingTags ==> alerts[1] == RollingTagAlert(file, name, container.tag))
    ensures forall a :: a in alerts ==> a.location == ImageLocation(file, name)
  {
    match service.image
    case None => []
    case Some(image) =>
      if Contains(image, Interpolation) then
        [EnvVarAlert(file, name, image)]
      else
        match ParseImage(service)
        case Ok(container) =>
          [TagAlert(file, name, container)]
          + (if container.tag in RollingTags then [RollingTagAlert(file, name, container.tag)] else [])
        case Err(_) => []
  }

  /** An image written without a tag is reported as a rolling tag, because
      the parser's default tag is `latest`. */
  lemma UntaggedImageIsRolling(file: ComposeFile, name: string, service: Service)
    requires service.image.Some? && !Contains(service.image.value, Interpolation)
    requires Count(service.image.value, '/') <= 2 && ':' !in LastSegment(service.image.value)
    ensures |ServiceImageAlerts(file, name, service)| == 2
    ensures ServiceImageAlerts(file, name, service)[1].severity == Medium
  {
  }

  /** A reference with a pinned tag other than `latest`, `main` or `master`
      gets the Information alert alone. */
  lemma PinnedImageNotRolling(file: ComposeFile, name: string, service: Service)
    requires service.image.Some? && !Contains(service.image.value, Interpolation)
    requires ParseImage(service).Ok? && ParseImage(service).value.tag !in RollingTags
    ensures ServiceImageAlerts(file, name, service) == [TagAlert(file, name, ParseImage(service).value)]
  {
  }

  function ImagesStep(file: ComposeFile): ((string, Service)) -> seq<Alert> {
    (entry: (string, Service)) => ServiceBuildAlerts(file, entry.0, entry.1) + ServiceImageAlerts(file, entry.0, entry.1)
  }

  /** `container_images`: per service, build alerts then image alerts. */
  function ContainerImages(config: Config, file: ComposeFile): seq<Alert> {
    ConcatMap(file.compose.services, ImagesStep(file))
  }

  /** Every alert of the rule is Information, except the Medium rolling-tag alert. */
  lemma ContainerImagesSeverities(config: Config, file: ComposeFile, a: Alert)
    requires a in ContainerImages(config, file)
    ensures a.severity == Information || (a.severity == Medium && a.id == Quibble("IMAGE_TAG_LATEST"))
  {
    ConcatMapMember(file.compose.services, ImagesStep(file), a);
  }
}

=== FILE: rule_registry.dfy ===
/**
  The registry-trust rule (`src/rules/registry.rs`): a service whose image
  is pulled from an instance outside the configured allow-list gets one
  alert naming that instance.
 */
module RegistryRule {
  import opened Wrappers
  import opened Strings
  import opened Seqs
  import opened Security
  import opened Configuration
  import opened Containers
  import opened Compose

  /** The service's image parses and its instance is not allowed. */
  predicate FromUntrustedRegistry(config: Config, service: Service) {
    ParseImage(service).Ok? && ParseImage(service).value.instance !in config.registries
  }

  /** The alert for an image from `instance`; it carries no line. */
  function RegistryAlert(file: ComposeFile, instance: string): Alert {
    Alert("Container from unknown registry: " + instance, High, Quibble("DOCKER_REGISTRY"),
          AlertLocation(file.path, None))
  }

  /** The rule's body for one service. */
  function ServiceRegistryAlerts(config: Config, file: ComposeFile, service: Service): (alerts: seq<Alert>)
    ensures FromUntrustedRegistry(config, service) ==>
      alerts == [RegistryAlert(file, ParseImage(service).value.instance)]
    ensures !FromUntrustedRegistry(config, service) ==> alerts == []
  {
    match ParseImage(service)
    case Ok(container) =>
      if container.instance !in config.registries then [RegistryAlert(file, container.instance)] else []
    case Err(_) => []
  }

  function RegistryStep(config: Config, file: ComposeFile): ((string, Service)) -> seq<Alert> {
    (entry: (string, Service)) => ServiceRegistryAlerts(config, file, entry.1)
  }

  /** `docker_registry`: the services in map order; the configuration is only read. */
  function DockerRegistry(config: Config, file: ComposeFile): seq<Alert> {
    ConcatMap(file.compose.services, RegistryStep(config, file))
  }

  function UntrustedEntry(config: Config): ((string, Service)) -> bool {
    (entry: (string, Service)) => FromUntrustedRegistry(config, entry.1)
  }

  function RegistryAlertOf(file: ComposeFile): ((string, Service)) -> Alert {
    (entry: (string, Service)) => RegistryAlert(file, match ParseImage(entry.1) case Ok(c) => c.instance case Err(_) => "")
  }

  /** Exactly one High alert per service pulling from an unlisted instance,
      in service order; a missing or unparsable image raises nothing. */
  lemma DockerRegistryOnePerService(config: Config, file: ComposeFile)
    ensures DockerRegistry(config, file)
         == Map(Filter(file.compose.services, UntrustedEntry(config)), RegistryAlertOf(file))
    ensures forall a :: a in DockerRegistry(config, file) ==>
      a.severity == High && a.location == AlertLocation(file.path, None)
  {
    ConcatMapSingletons(file.compose.services, RegistryStep(config, file), UntrustedEntry(config), RegistryAlertOf(file));
  }

  /** A reference with no instance resolves to `docker.io`, so it raises
      nothing while `docker.io` is allowed. */
  lemma ShortReferenceTrusted(config: Config, file: ComposeFile, service: Service)
    requires "docker.io" in config.registries
    requires service.image.Some? && Count(service.image.value, '/') < 2
    ensures ServiceRegistryAlerts(config, file, service) == []
  {
  }

  /** A fully written reference from an unlisted instance raises one alert naming it. */
  lemma ForeignInstanceFlagged(config: Config, file: ComposeFile, service: Service)
    requires service.image.Some? && Count(service.image.value, '/') == 2
    requires ParseImage(service).Ok? ==> ParseImage(service).value.instance !in config.registries
    ensures |ServiceRegistryAlerts(config, file, service)| == 1
    ensures ServiceRegistryAlerts(config, file, service)[0].details
         == "Container from unknown registry: " + ParseImage(service).value.instance
  {
  }
}

=== FILE: rule_socket.dfy ===
/**
  The Docker-socket rule (`src/rules/socket.rs`): a service that mounts the
  host's Docker socket gets one alert, however many of its volumes do.
 */
module SocketRule {
  import opened Wrappers
  import opened Strings
  import opened Seqs
  import opened Security
  import opened Configuration
  import opened Compose

  const DockerSocketPath: string := "/var/run/docker.sock"

  /** `items.iter().find(|s| s.starts_with(prefix))`: the first item with the prefix, if any. */
  function FindPrefixed(items: seq<string>, prefix: string): (r: Option<string>)
    ensures r.Some? ==> r.value in items && StartsWith(r.value, prefix)
    ensures r.None? <==> forall v :: v in items ==> !StartsWith(v, prefix)
    ensures r.Some? ==> exists i :: 0 <= i < |items| && items[i] == r.value
                                   && forall j :: 0 <= j < i ==> !StartsWith(items[j], prefix)
  {
    if |items| == 0 then None
    else if StartsWith(items[0], prefix) then Some(items[0])
    else
      assert forall v :: v in items ==> v == items[0] || v in items[1..];
      var r := FindPrefixed(items[1..], prefix);
      assert r.Some? ==> exists i :: 1 <= i < |items| && items[i] == r.value
                                   && forall j :: 0 <= j < i ==> !StartsWith(items[j], prefix) by {
        if r.Some? {
          var k :| 0 <= k < |items[1..]| && items[1..][k] == r.value
                   && forall j :: 0 <= j < k ==> !StartsWith(items[1..][j], prefix);
          assert forall j :: 0 <= j < k + 1 ==> !StartsWith(items[j], prefix) by {
            forall j | 0 <= j < k + 1 ensures !StartsWith(items[j], prefix) {
              if j > 0 { assert items[j] == items[1..][j - 1]; }
            }
          }
        }
      }
      r
  }

  /** Some volume of the service is the socket path or starts with it. */
  predicate MountsDockerSocket(service: Service) {
    service.volumes.Some? && exists v :: v in service.volumes.value && StartsWith(v, DockerSocketPath)
  }

  /** The alert for service `name`, on the line of its `volumes` key. */
  function SocketAlert(file: ComposeFile, name: string): Alert {
    Alert("Docker Socket being passed into container", High, Quibble("DOCKER_SOCKET"),
          AlertLocation(file.path, MappingLine(file, FieldKey(name, "volumes"))))
  }

  /** The rule's body for one service. */
  function ServiceSocketAlerts(file: ComposeFile, name: string, service: Service): (alerts: seq<Alert>)
    ensures alerts == (if MountsDockerSocket(service) then [SocketAlert(file, name)] else [])
  {
    match service.volumes
    case None => []
    case Some(volumes) =>
      if FindPrefixed(volumes, DockerSocketPath).Some? then [SocketAlert(file, name)] else []
  }

  function SocketStep(file: ComposeFile): ((string, Service)) -> seq<Alert> {
    (entry: (string, Service)) => ServiceSocketAlerts(file, entry.0, entry.1)
  }

  /** `docker_socket`: the services in map order, each checked on its own. */
  function DockerSocket(config: Config, file: ComposeFile): seq<Alert> {
    ConcatMap(file.compose.services, SocketStep(file))
  }

  predicate MountsDockerSocketEntry(entry: (string, Service)) {
    MountsDockerSocket(entry.1)
  }

  function SocketAlertOf(file: ComposeFile): ((string, Service)) -> Alert {
    (entry: (string, Service)) => SocketAlert(file, entry.0)
  }

  /** Exactly one High alert per service that mounts the socket, in service
      order, and none for any other service. */
  lemma DockerSocketOnePerService(config: Config, file: ComposeFile)
    ensures DockerSocket(config, file)
         == Map(Filter(file.compose.services, MountsDockerSocketEntry), SocketAlertOf(file))
    ensures |DockerSocket(config, file)| <= |file.compose.services|
    ensures forall a :: a in DockerSocket(config, file) ==>
      a.severity == High && a.id == Quibble("DOCKER_SOCKET") && a.location.path == file.path
  {
    ConcatMapSingletons(file.compose.services, SocketStep(file), MountsDockerSocketEntry, SocketAlertOf(file));
  }
}

=== FILE: rule_version.dfy ===
/**
  The schema-version rule (`src/rules/version.rs`): an old compose-file
  version gets one alert, placed on the line of the `version` key.
 */
module VersionRule {
  import opened Wrappers
  import opened Security
  import opened Configuration
  import opened Compose

  const V1Version: string := "1"
  const V2Versions: set<string> := {"2", "2.0", "2.1", "2.2", "2.3", "2.4"}
  const V3Versions: set<string> := {"3", "3.0", "3.1", "3.2", "3.3", "3.4", "3.5"}

  /** What an old version earns: a rule code, the message and its severity. */
  datatype VersionFinding = VersionFinding(code: string, details: string, severity: Severity)

  /** The version table shared by this rule and the older `ComposeVersion`. */
  function ClassifyVersion(version: string): (f: Option<VersionFinding>)
    ensures f.Some? <==> version == V1Version || version in V2Versions || version in V3Versions
    ensures version == V1Version ==> f.Some? && f.value.severity == Medium
    ensures version in V2Versions + V3Versions ==> f.Some? && f.value.severity == Low
  {
    if version == V1Version then
      Some(VersionFinding("COMPOSE_V1", "Compose v1", Medium))
    else if version in V2Versions then
      Some(VersionFinding("COMPOSE_V2", "Compose v2 used", Low))
    else if version in V3Versions then
      Some(VersionFinding("COMPOSE_V3", "Using old Compose v3 spec, consider upgrading", Low))
    else
      None
  }

  /** `docker_version`: at most one alert, on the `version` line. */
  function DockerVersion(config: Config, file: ComposeFile): (alerts: seq<Alert>)
    ensures |alerts| <= 1
    ensures |alerts| == 1 <==>
      file.compose.version.Some? &&
      (file.compose.version.value == "1" || file.compose.version.value in V2Versions + V3Versions)
    ensures forall a :: a in alerts ==> a.location == AlertLocation(file.path, MappingLine(file, "version"))
    ensures file.compose.version == Some("1") ==>
      alerts == [Alert("Compose v1", Medium, Quibble("COMPOSE_V1"), AlertLocation(file.path, MappingLine(file, "version")))]
    ensures file.compose.version.Some? && file.compose.version.value in V2Versions ==>
      |alerts| == 1 && alerts[0].severity == Low && alerts[0].id == Quibble("COMPOSE_V2")
    ensures file.compose.version.Some? && file.compose.version.value in V3Versions ==>
      |alerts| == 1 && alerts[0].severity == Low && alerts[0].id == Quibble("COMPOSE_V3")
  {
    match file.compose.version
    case None => []
    case Some(version) =>
      match ClassifyVersion(version)
      case None => []
      case Some(finding) =>
        [Alert(finding.details, finding.severity, Quibble(finding.code),
               AlertLocation(file.path, MappingLine(file, "version")))]
  }
}

=== FILE: rules.dfy ===
/**
  The rule registry of `src/rules.rs`: a configuration and an ordered list
  of rules; `New` registers the eight built-in rules unless rules are
  disabled, `Register` appends one, and `Run` evaluates every rule in order
  into one alert list and sorts it by severity.

  A rule is handed the shared alert list and may fail. Whatever state it
  leaves the list in is kept even when it fails, and the next rule still
  runs; a rule's outcome is therefore the whole list after it ran plus a
  failure flag. The built-in rules only append and never fail; any other
  rule may also drop, reorder or change alerts already in the list.
 */
module Rules {
  import opened Seqs
  import opened Security
  import opened Configuration
  import opened Compose
  import SeveritySort
  import VersionRule
  import SocketRule
  import RegistryRule
  import ImagesRule
  import AllRules
  import EnvironmentRule

  /** The shared alert list after a rule ran, and whether it returned `Err`. */
  datatype RuleOutcome = RuleOutcome(alerts: seq<Alert>, failed: bool)

  /** The built-in rules, named after their functions. */
  datatype BuiltinRule =
    | DockerVersion
    | DockerSocket
    | DockerRegistry
    | ContainerImages
    | KernelParameters
    | SecurityOpts
    | Privileged
    | EnvironmentVariables

  /** A registered rule: a built-in one or any other check. */
  datatype Rule =
    | Builtin(kind: BuiltinRule)
    | Custom(check: (Config, ComposeFile, seq<Alert>) -> RuleOutcome)

  datatype Rules = Rules(config: Config, rules: seq<Rule>)

  /** The registration order of `Rules::new`. */
  const BuiltinOrder: seq<BuiltinRule> := [
    DockerVersion, DockerSocket, DockerRegistry, ContainerImages,
    KernelParameters, SecurityOpts, Privileged, EnvironmentVariables
  ]

  function Register(registry: Rules, rule: Rule): (r: Rules)
    ensures r.config == registry.config
    ensures |r.rules| == |registry.rules| + 1
    ensures r.rules[..|registry.rules|] == registry.rules && r.rules[|registry.rules|] == rule
  {
    var r := Rules(registry.config, registry.rules + [rule]);
    assert r.rules[..|registry.rules|] == registry.rules;
    r
  }

  /** Registers each built-in rule in turn. */
  function RegisterAll(registry: Rules, kinds: seq<BuiltinRule>): (r: Rules)
    ensures r.config == registry.config
    ensures |r.rules| == |registry.rules| + |kinds|
    ensures r.rules[..|registry.rules|] == registry.rules
    ensures forall i :: 0 <= i < |kinds| ==> r.rules[|registry.rules| + i] == Builtin(kinds[i])
    decreases |kinds|
  {
    if |kinds| == 0 then registry
    else
      var r := RegisterAll(Register(registry, Builtin(kinds[0])), kinds[1..]);
      assert r.rules[..|registry.rules| + 1][..|registry.rules|] == r.rules[..|registry.rules|];
      r
  }

  /** `Rules::new` */
  function New(config: Config): (r: Rules)
    ensures r.config == config
    ensures config.disableRules ==> r.rules == []
    ensures !config.disableRules ==>
      |r.rules| == |BuiltinOrder| && forall i :: 0 <= i < |BuiltinOrder| ==> r.rules[i] == Builtin(BuiltinOrder[i])
  {
    var empty := Rules(config, []);
    if config.disableRules then empty
    else
      var r := RegisterAll(empty, BuiltinOrder);
      assert forall i :: 0 <= i < |BuiltinOrder| ==> r.rules[0 + i] == Builtin(BuiltinOrder[i]);
      r
  }

  /** `Rules::len` */
  function Len(registry: Rules): nat {
    |registry.rules|
  }

  /** A fresh registry holds the eight built-in rules, or none when rules
      are disabled; each registration adds one. */
  lemma LenAfterNewAndRegister(config: Config, registry: Rules, rule: Rule)
    ensures Len(New(config)) == (if config.disableRules then 0 else 8)
    ensures Len(Register(registry, rule)) == Len(registry) + 1
  {
  }

  /** What one built-in rule pushes for a file. */
  function BuiltinAlerts(kind: BuiltinRule, config: Config, file: ComposeFile, show: Service -> string): seq<Alert> {
    match kind
    case DockerVersion => VersionRule.DockerVersion(config, file)
    case DockerSocket => SocketRule.DockerSocket(config, file)
    case DockerRegistry => RegistryRule.DockerRegistry(config, file)
    case ContainerImages => ImagesRule.ContainerImages(config, file)
    case KernelParameters => AllRules.KernelParameters(config, file)
    case SecurityOpts => AllRules.SecurityOpts(config, file, show)
    case Privileged => AllRules.Privileged(config, file)
    case EnvironmentVariables => EnvironmentRule.EnvironmentVariables(config, file)
  }

  /** One rule run on the shared list `alerts`. */
  function Evaluate(rule: Rule, config: Config, file: ComposeFile, show: Service -> string, alerts: seq<Alert>): (outcome: RuleOutcome)
    ensures rule.Builtin? ==> !outcome.failed
    ensures rule.Builtin? ==> |outcome.alerts| >= |alerts| && outcome.alerts[..|alerts|] == alerts
  {
    match rule
    case Builtin(kind) =>
      var after := alerts + BuiltinAlerts(kind, config, file, show);
      assert after[..|alerts|] == alerts;
      RuleOutcome(after, false)
    case Custom(check) => check(config, file, alerts)
  }

  /** One rule run on the list its predecessors left. */
  function RunStep(config: Config, file: ComposeFile, show: Service -> string): (seq<Alert>, Rule) -> seq<Alert> {
    (alerts: seq<Alert>, rule: Rule) => Evaluate(rule, config, file, show, alerts).alerts
  }

  /** The rules run in order on the list `alerts`; a failure is logged and
      neither undoes the failing rule's changes nor stops the rest. */
  function RunFrom(rules: seq<Rule>, config: Config, file: ComposeFile, show: Service -> string, alerts: seq<Alert>): seq<Alert> {
    FoldLeft(rules, RunStep(config, file, show), alerts)
  }

  /** The list `run` sorts: every rule run in turn, starting from empty. */
  function Collect(rules: seq<Rule>, config: Config, file: ComposeFile, show: Service -> string): seq<Alert> {
    RunFrom(rules, config, file, show, [])
  }

  /** What a rule adds when it runs on an empty list. */
  function PushedStep(config: Config, file: ComposeFile, show: Service -> string): Rule -> seq<Alert> {
    (rule: Rule) => Evaluate(rule, config, file, show, []).alerts
  }

  /** A rule that only appends: a built-in rule, or a registered one that,
      whatever the list holds, keeps it and adds the same alerts after it. */
  ghost predicate AppendsOnly(rule: Rule, config: Config, file: ComposeFile) {
    rule.Custom? ==>
      forall prior: seq<Alert> :: rule.check(config, file, prior).alerts == prior + rule.check(config, file, []).alerts
  }

  /** A rule that only appends adds what it adds to an empty list, after
      whatever the list already holds. */
  lemma AppendsOnlyStep(rule: Rule, config: Config, file: ComposeFile, show: Service -> string, alerts: seq<Alert>)
    requires AppendsOnly(rule, config, file)
    ensures Evaluate(rule, config, file, show, alerts).alerts == alerts + PushedStep(config, file, show)(rule)
  {
    if rule.Builtin? {
      assert [] + BuiltinAlerts(rule.kind, config, file, show) == BuiltinAlerts(rule.kind, config, file, show);
    }
  }

  /** When every rule only appends, as the built-in ones do, collecting is
      the concatenation of every rule's alerts in registration order,
      failing or not. */
  lemma CollectIsConcatenation(rules: seq<Rule>, config: Config, file: ComposeFile, show: Service -> string)
    requires forall rule :: rule in rules ==> AppendsOnly(rule, config, file)
    ensures Collect(rules, config, file, show) == ConcatMap(rules, PushedStep(config, file, show))
  {
    forall i, prior | 0 <= i < |rules|
      ensures RunStep(config, file, show)(prior, rules[i]) == prior + PushedStep(config, file, show)(rules[i])
    {
      assert rules[i] in rules;
      AppendsOnlyStep(rules[i], config, file, show, prior);
    }
    FoldLeftConcatMap(rules, RunStep(config, file, show), PushedStep(config, file, show), []);
    assert [] + ConcatMap(rules, PushedStep(config, file, show)) == ConcatMap(rules, PushedStep(config, file, show));
  }

  /** `Rules::run`: every rule in registration order, then the stable sort
      by severity. */
  method Run(registry: Rules, file: ComposeFile, show: Service -> string) returns (alerts: seq<Alert>)
    ensures alerts == SeveritySort.BySeverity(Collect(registry.rules, registry.config, file, show))
    ensures multiset(alerts) == multiset(Collect(registry.rules, registry.config, file, show))
    ensures forall i, j :: 0 <= i < j < |alerts| ==> Rank(alerts[i].severity) <= Rank(alerts[j].severity)
  {
    var collected: seq<Alert> := [];
    for i := 0 to |registry.rules|
      invariant RunFrom(registry.rules[i..], registry.config, file, show, collected)
             == Collect(registry.rules, registry.config, file, show)
    {
      var outcome := Evaluate(registry.rules[i], registry.config, file, show, collected);
      assert registry.rules[i..][0] == registry.rules[i] && registry.rules[i..][1..] == registry.rules[i + 1..];
      assert RunStep(registry.config, file, show)(collected, registry.rules[i]) == outcome.alerts;
      collected := outcome.alerts;
    }
    alerts := SeveritySort.SortBySeverity(collected);
  }

  /** With rules disabled a fresh registry reports nothing. */
  lemma DisabledRegistryIsSilent(config: Config, file: ComposeFile, show: Service -> string)
    requires config.disableRules
    ensures Collect(New(config).rules, config, file, show) == []
    ensures SeveritySort.BySeverity(Collect(New(config).rules, config, file, show)) == []
  {
    assert SeveritySort.BySeverity([]) == SeveritySort.BucketFrom([], SeveritySort.SeverityKey(), |Severities|, 0);
    SeveritySort.BucketFromEmpty([], SeveritySort.SeverityKey(), |Severities|, 0);
  }

  function BuiltinStep(config: Config, file: ComposeFile, show: Service -> string): BuiltinRule -> seq<Alert> {
    (kind: BuiltinRule) => BuiltinAlerts(kind, config, file, show)
  }

  /** Before sorting, a fresh registry yields the built-in rules' alerts in
      registration order, starting with the version rule's. */
  lemma DefaultRegistryOrder(config: Config, file: ComposeFile, show: Service -> string)
    requires !config.disableRules
    ensures Collect(New(config).rules, config, file, show) == ConcatMap(BuiltinOrder, BuiltinStep(config, file, show))
    ensures Collect(New(config).rules, config, file, show)
         == VersionRule.DockerVersion(config, file) + ConcatMap(BuiltinOrder[1..], BuiltinStep(config, file, show))
  {
    var rules := New(config).rules;
    CollectIsConcatenation(rules, config, file, show);
    BuiltinConcatenation(rules, BuiltinOrder, config, file, show);
  }

  lemma {:induction false} BuiltinConcatenation(rules: seq<Rule>, kinds: seq<BuiltinRule>, config: Config, file: ComposeFile, show: Service -> string)
    requires |rules| == |kinds|
    requires forall i :: 0 <= i < |kinds| ==> rules[i] == Builtin(kinds[i])
    ensures ConcatMap(rules, PushedStep(config, file, show)) == ConcatMap(kinds, BuiltinStep(config, file, show))
    decreases |rules|
  {
    if |rules| != 0 {
      BuiltinConcatenation(rules[1..], kinds[1..], config, file, show);
      assert PushedStep(config, file, show)(rules[0]) == [] + BuiltinStep(config, file, show)(kinds[0]);
    }
  }

  /** A rule that fails leaves the list as it left it, and the rules after
      it still run on that list; a failure that only appended keeps every
      earlier alert and adds its own after them. */
  lemma FailureKeepsAlerts(rules: seq<Rule>, rule: Rule, later: seq<Rule>, config: Config, file: ComposeFile, show: Service -> string)
    requires Evaluate(rule, config, file, show, Collect(rules, config, file, show)).failed
    ensures Collect(rules + [rule] + later, config, file, show)
         == RunFrom(later, config, file, show, Evaluate(rule, config, file, show, Collect(rules, config, file, show)).alerts)
    ensures AppendsOnly(rule, config, file) ==>
      Evaluate(rule, config, file, show, Collect(rules, config, file, show)).alerts
        == Collect(rules, config, file, show) + PushedStep(config, file, show)(rule)
  {
    FoldLeftAppend(rules + [rule], later, RunStep(config, file, show), []);
    FoldLeftAppend(rules, [rule], RunStep(config, file, show), []);
  }
}

=== FILE: sarif.dfy ===
/**
  The SARIF 2.1.0 report builder of `src/formatters/sarif.rs`: a builder
  collects alerts, a tool descriptor and a base directory, and `Build`
  turns them into a log with one run holding one rule descriptor and one
  result (section 3.27 of the OASIS SARIF 2.1.0 standard) per alert, in
  alert order, each result with one physical location whose region
  (section 3.30) starts at the one-based line.

  File paths are compared by components as Rust's `Path::strip_prefix`
  does: an optional root, then the non-empty `/`-separated names.
 */
module Sarif {
  import opened Wrappers
  import opened Strings
  import opened Seqs
  import opened Security

  // ------------------------------------------------------------- records

  datatype Message = Message(text: string)

  datatype Properties = Properties(
    tags: seq<string>,
    precision: string,
    severity: string,
    securitySeverity: string,
    kind: string,
    id: string)

  /** A rule descriptor of the driver (`Rule` in `src/formatters/sarif.rs`). */
  datatype SarifRule = SarifRule(
    id: string,
    name: string,
    shortDescription: Message,
    fullDescription: Message,
    helpUri: string,
    properties: Properties)

  datatype Driver = Driver(name: string, organization: string, semanticVersion: string, rules: seq<SarifRule>)

  datatype Tool = Tool(driver: Driver)

  datatype ArtifactLocation = ArtifactLocation(uri: string, uriBaseId: string, index: nat)

  datatype Region = Region(startLine: int, startColumn: int, endLine: int, endColumn: int)

  datatype PhysicalLocation = PhysicalLocation(artifactLocation: ArtifactLocation, region: Region)

  datatype Location = Location(physicalLocation: PhysicalLocation)

  datatype RunResult = RunResult(ruleId: string, message: Message, locations: seq<Location>)

  datatype Artifact = Artifact(location: ArtifactLocation)

  datatype Run = Run(tool: Tool, results: seq<RunResult>, artifacts: seq<Artifact>)

  datatype SarifFile = SarifFile(version: string, runs: seq<Run>)

  const SarifVersion: string := "2.1.0"
  const SourceRoot: string := "%SRCROOT%"
  const Organization: string := "geekmasher"
  const Precision: string := "high"

  /** `SarifFile::default()`: the format version and no runs. */
  function DefaultSarifFile(): (f: SarifFile)
    ensures f.version == SarifVersion && f.runs == []
  {
    SarifFile(SarifVersion, [])
  }

  function DefaultTool(): Tool {
    Tool(Driver("", "", "", []))
  }

  /** `ArtifactLocation::default()`: relative to the source root, artifact 0. */
  function DefaultArtifactLocation(): (loc: ArtifactLocation)
    ensures loc.uri == "" && loc.uriBaseId == SourceRoot && loc.index == 0
  {
    ArtifactLocation("", SourceRoot, 0)
  }

  function DefaultProperties(): Properties {
    Properties([], "", "", "", "", "")
  }

  // -------------------------------------------------------- path components

  /** A path component: the root, or a non-empty name. */
  datatype Component = RootDir | Normal(name: string)

  predicate NonEmptyName(s: string) {
    |s| > 0
  }

  function NormalOf(s: string): Component {
    Normal(s)
  }

  function NameOf(c: Component): string {
    match c
    case RootDir => ""
    case Normal(n) => n
  }

  /** The non-empty `/`-separated names of a path, in order. */
  function Names(p: string): (names: seq<string>)
    ensures forall i :: 0 <= i < |names| ==> |names[i]| > 0 && '/' !in names[i]
  {
    var parts := Split(p, '/');
    var names := Filter(parts, NonEmptyName);
    assert forall n :: n in names ==> |n| > 0 && '/' !in n by {
      forall n | n in names ensures |n| > 0 && '/' !in n {
        assert n in parts;
        var j :| 0 <= j < |parts| && parts[j] == n;
      }
    }
    names
  }

  /** The components of a path: a root for a leading `/`, then every
      non-empty `/`-separated name. */
  function Components(p: string): seq<Component> {
    (if |p| > 0 && p[0] == '/' then [RootDir] else []) + Map(Names(p), NormalOf)
  }

  /** Components as `Components` produces them: the root only first, every
      name non-empty and free of `/`. */
  predicate WellFormed(cs: seq<Component>) {
    forall i :: 0 <= i < |cs| ==>
      (cs[i].RootDir? ==> i == 0) && (cs[i].Normal? ==> |cs[i].name| > 0 && '/' !in cs[i].name)
  }

  /** Names joined by single separators; the empty list gives the empty text. */
  function JoinNames(names: seq<string>): string {
    if |names| == 0 then "" else Join(names, '/')
  }

  /** The text of a component list, as `Path::display` shows it. */
  function Render(cs: seq<Component>): string {
    if |cs| > 0 && cs[0].RootDir? then "/" + JoinNames(Map(cs[1..], NameOf))
    else JoinNames(Map(cs, NameOf))
  }

  /** `Path::strip_prefix`: the rest of `path` when `base`'s components
      begin `path`'s components. */
  function StripPrefix(path: string, base: string): (r: Option<string>)
    ensures r.Some? <==> |Components(base)| <= |Components(path)| && Components(path)[..|Components(base)|] == Components(base)
  {
    var p, b := Components(path), Components(base);
    if |b| <= |p| && p[..|b|] == b then Some(Render(p[|b|..])) else None
  }

  /** The URI an alert is reported under: relative to the base when the
      base is a prefix of its path, its path otherwise. */
  function Uri(base: string, path: string): (uri: string)
    ensures StripPrefix(path, base).None? ==> uri == path
  {
    StripPrefix(path, base).GetOr(path)
  }

  lemma ComponentsWellFormed(p: string)
    ensures WellFormed(Components(p))
  {
    var names := Names(p);
    var mapped := Map(names, NormalOf);
    assert WellFormed(mapped) by {
      forall i | 0 <= i < |mapped|
        ensures (mapped[i].RootDir? ==> i == 0) && (mapped[i].Normal? ==> |mapped[i].name| > 0 && '/' !in mapped[i].name)
      {
        assert mapped[i] == Normal(names[i]);
      }
    }
    if |p| > 0 && p[0] == '/' {
      var cs := [RootDir] + mapped;
      forall i | 0 <= i < |cs|
        ensures (cs[i].RootDir? ==> i == 0) && (cs[i].Normal? ==> |cs[i].name| > 0 && '/' !in cs[i].name)
      {
        if i > 0 {
          assert cs[i] == mapped[i - 1];
        }
      }
      assert cs == Components(p);
    } else {
      assert mapped == Components(p);
    }
  }

  lemma {:induction false} JoinStartsWithFirst(names: seq<string>)
    requires |names| >= 1 && |names[0]| > 0
    ensures |Join(names, '/')| > 0 && Join(names, '/')[0] == names[0][0]
  {
  }

  lemma {:induction false} FilterKeepsAll<T(!new)>(xs: seq<T>, p: T -> bool)
    requires forall x :: x in xs ==> p(x)
    ensures Filter(xs, p) == xs
    decreases |xs|
  {
    if |xs| != 0 {
      FilterKeepsAll(xs[1..], p);
    }
  }

  /** The names of a root-free well-formed list come back from splitting
      its rendering. */
  lemma NamesRoundTrip(cs: seq<Component>)
    requires WellFormed(cs) && forall i :: 0 <= i < |cs| ==> cs[i].Normal?
    ensures Map(Names(JoinNames(Map(cs, NameOf))), NormalOf) == cs
    ensures |cs| > 0 ==> |JoinNames(Map(cs, NameOf))| > 0 && JoinNames(Map(cs, NameOf))[0] != '/'
  {
    var names := Map(cs, NameOf);
    var split := Split(JoinNames(names), '/');
    if |cs| == 0 {
      assert split == [""];
      assert Filter(split, NonEmptyName) == Filter([], NonEmptyName);
    } else {
      assert SeparatorFree(names, '/') by {
        forall i | 0 <= i < |names| ensures '/' !in names[i] {
          assert names[i] == cs[i].name;
        }
      }
      SplitJoin(names, '/');
      assert forall x :: x in split ==> NonEmptyName(x) by {
        forall x | x in split ensures NonEmptyName(x) {
          var i :| 0 <= i < |names| && names[i] == x;
          assert names[i] == cs[i].name;
        }
      }
      FilterKeepsAll(split, NonEmptyName);
      assert names[0] == cs[0].name;
      JoinStartsWithFirst(names);
    }
    assert Names(JoinNames(names)) == Filter(split, NonEmptyName);
    var back := Map(Filter(split, NonEmptyName), NormalOf);
    assert |back| == |cs|;
    forall i | 0 <= i < |cs| ensures back[i] == cs[i] {
      if |cs| > 0 {
        assert back[i] == Normal(names[i]);
      }
    }
  }

  /** Rendering then taking components again gives back a well-formed list. */
  lemma ComponentsOfRender(cs: seq<Component>)
    requires WellFormed(cs)
    ensures Components(Render(cs)) == cs
  {
    if |cs| > 0 && cs[0].RootDir? {
      var rest := cs[1..];
      assert WellFormed(rest) by {
        forall i | 0 <= i < |rest|
          ensures (rest[i].RootDir? ==> i == 0) && (rest[i].Normal? ==> |rest[i].name| > 0 && '/' !in rest[i].name)
        {
          assert rest[i] == cs[i + 1];
        }
      }
      assert forall i :: 0 <= i < |rest| ==> rest[i].Normal? by {
        forall i | 0 <= i < |rest| ensures rest[i].Normal? {
          assert rest[i] == cs[i + 1];
        }
      }
      NamesRoundTrip(rest);
      var text := JoinNames(Map(rest, NameOf));
      var r := Render(cs);
      assert r == "" + ['/'] + text;
      SplitCons("", '/', text);
      assert Names(r) == Names(text);
      assert Components(r) == [RootDir] + rest;
    } else {
      assert forall i :: 0 <= i < |cs| ==> cs[i].Normal?;
      NamesRoundTrip(cs);
    }
  }

  /** Stripping `base` from `path` leaves exactly the components that follow
      `base`'s: putting them back after `base` gives `path`'s components. */
  lemma WellFormedSuffix(cs: seq<Component>, k: nat)
    requires WellFormed(cs) && k <= |cs|
    ensures WellFormed(cs[k..])
  {
    var rest := cs[k..];
    forall i | 0 <= i < |rest|
      ensures (rest[i].RootDir? ==> i == 0) && (rest[i].Normal? ==> |rest[i].name| > 0 && '/' !in rest[i].name)
    {
      assert rest[i] == cs[i + k];
    }
  }

  /** Putting a prefix back in front of the components of the rendered rest
      gives the whole list. */
  lemma PrefixAndRest(p: seq<Component>, b: seq<Component>)
    requires WellFormed(p) && |b| <= |p| && p[..|b|] == b
    ensures b + Components(Render(p[|b|..])) == p
  {
    WellFormedSuffix(p, |b|);
    ComponentsOfRender(p[|b|..]);
    assert b + p[|b|..] == p;
  }

  lemma StripPrefixRoundTrip(path: string, base: string)
    requires StripPrefix(path, base).Some?
    ensures Components(base) + Components(StripPrefix(path, base).value) == Components(path)
  {
    ComponentsWellFormed(path);
    PrefixAndRest(Components(path), Components(base));
  }

  // ----------------------------------------------------------------- builder

  datatype Builder = Builder(tool: Tool, base: string, alerts: seq<Alert>)

  /** `SarifBuilder::new()`: default tool, empty base, no alerts. */
  function NewBuilder(): (b: Builder)
    ensures b.tool == DefaultTool() && b.base == "" && b.alerts == []
  {
    Builder(DefaultTool(), "", [])
  }

  /** `add_results`: appends, keeping order and duplicates. */
  function AddResults(b: Builder, results: seq<Alert>): (r: Builder)
    ensures r.tool == b.tool && r.base == b.base
    ensures |r.alerts| == |b.alerts| + |results|
    ensures r.alerts[..|b.alerts|] == b.alerts && r.alerts[|b.alerts|..] == results
  {
    var r := Builder(b.tool, b.base, b.alerts + results);
    assert r.alerts[..|b.alerts|] == b.alerts;
    r
  }

  /** `base`, with the directory taken as given. */
  function SetBase(b: Builder, base: string): (r: Builder)
    ensures r.tool == b.tool && r.alerts == b.alerts && r.base == base
  {
    Builder(b.tool, base, b.alerts)
  }

  /** `set_tool`: the driver is named and versioned, its organization fixed,
      and its rule list starts empty. */
  function SetTool(b: Builder, name: string, version: string): (r: Builder)
    ensures r.base == b.base && r.alerts == b.alerts
    ensures r.tool.driver.name == name && r.tool.driver.semanticVersion == version
    ensures r.tool.driver.organization == Organization && r.tool.driver.rules == []
  {
    Builder(Tool(Driver(name, Organization, version, [])), b.base, b.alerts)
  }

  /** The rule descriptor pushed for one alert. `cvss` is `Alert::cvss`. */
  function RuleFor(quibble: string -> string, cvss: Alert -> string): Alert -> SarifRule {
    (a: Alert) =>
      SarifRule(
        RuleIdText(a.id, quibble),
        a.details,
        Message(a.details),
        Message(a.details),
        "",
        Properties([], Precision, ToLower(SeverityName(a.severity)), cvss(a), "", RuleIdText(a.id, quibble)))
  }

  /** The one-based start line: the stored zero-based line plus one, or 1. */
  function StartLine(loc: AlertLocation): (line: int)
    ensures line >= 1
    ensures loc.line.Some? ==> line - 1 == loc.line.value
    ensures loc.line.None? ==> line == 1
  {
    loc.line.GetOr(0) + 1
  }

  /** The result pushed for one alert. */
  function ResultFor(base: string, quibble: string -> string): Alert -> RunResult {
    (a: Alert) =>
      RunResult(
        RuleIdText(a.id, quibble),
        Message(a.details),
        [Location(PhysicalLocation(
          ArtifactLocation(Uri(base, a.location.path), SourceRoot, 0),
          Region(StartLine(a.location), 0, 0, 0)))])
  }

  /** `build`: one run; the tool's own rules followed by one rule per alert,
      and one result per alert, both in alert order. It always succeeds. */
  function Build(b: Builder, quibble: string -> string, cvss: Alert -> string): (r: Result<SarifFile, string>)
    ensures r.Ok? && r.value.version == SarifVersion && |r.value.runs| == 1
    ensures r.value.runs[0].artifacts == []
    ensures r.value.runs[0].tool.driver.name == b.tool.driver.name
    ensures r.value.runs[0].tool.driver.organization == b.tool.driver.organization
    ensures r.value.runs[0].tool.driver.semanticVersion == b.tool.driver.semanticVersion
    ensures |r.value.runs[0].tool.driver.rules| == |b.tool.driver.rules| + |b.alerts|
    ensures r.value.runs[0].tool.driver.rules[..|b.tool.driver.rules|] == b.tool.driver.rules
    ensures |r.value.runs[0].results| == |b.alerts|
  {
    var driver := b.tool.driver;
    var rules := driver.rules + Map(b.alerts, RuleFor(quibble, cvss));
    assert rules[..|driver.rules|] == driver.rules;
    var run := Run(
      Tool(Driver(driver.name, driver.organization, driver.semanticVersion, rules)),
      Map(b.alerts, ResultFor(b.base, quibble)),
      []);
    Ok(SarifFile(DefaultSarifFile().version, DefaultSarifFile().runs + [run]))
  }

  /** What `Build` reports for the alert at position `i`: its rule and its
      result carry the same rendered identifier, the message is the alert's
      text, the severity property is the lower-cased severity name, and the
      single location is the alert's path relative to the base, starting at
      the one-based line. */
  lemma BuildReportsAlert(b: Builder, quibble: string -> string, cvss: Alert -> string, i: nat)
    requires i < |b.alerts|
    ensures var run := Build(b, quibble, cvss).value.runs[0];
      var rule := run.tool.driver.rules[|b.tool.driver.rules| + i];
      var result := run.results[i];
      var a := b.alerts[i];
      && result.ruleId == rule.id == rule.properties.id == RuleIdText(a.id, quibble)
      && result.message.text == rule.name == rule.shortDescription.text == rule.fullDescription.text == a.details
      && rule.properties.severity == ToLower(SeverityName(a.severity))
      && rule.properties.precision == Precision
      && rule.properties.securitySeverity == cvss(a)
      && |result.locations| == 1
      && result.locations[0].physicalLocation.artifactLocation.uri == Uri(b.base, a.location.path)
      && result.locations[0].physicalLocation.artifactLocation.uriBaseId == SourceRoot
      && result.locations[0].physicalLocation.region.startLine >= 1
      && result.locations[0].physicalLocation.region.startLine == a.location.line.GetOr(0) + 1
  {
    var run := Build(b, quibble, cvss).value.runs[0];
    assert run.tool.driver.rules[|b.tool.driver.rules| + i] == RuleFor(quibble, cvss)(b.alerts[i]);
    assert run.results[i] == ResultFor(b.base, quibble)(b.alerts[i]);
  }

  lemma BuildResults(b: Builder, quibble: string -> string, cvss: Alert -> string)
    ensures Build(b, quibble, cvss).value.runs[0].results == Map(b.alerts, ResultFor(b.base, quibble))
  {
  }

  /** Adding alerts to a builder appends their results after the earlier
      ones: nothing is merged or reordered. */
  lemma BuildAfterAddResults(b: Builder, more: seq<Alert>, quibble: string -> string, cvss: Alert -> string)
    ensures Build(AddResults(b, more), quibble, cvss).value.runs[0].results
         == Build(b, quibble, cvss).value.runs[0].results + Build(Builder(b.tool, b.base, more), quibble, cvss).value.runs[0].results
  {
    BuildResults(AddResults(b, more), quibble, cvss);
    BuildResults(b, quibble, cvss);
    BuildResults(Builder(b.tool, b.base, more), quibble, cvss);
    MapAppend(b.alerts, more, ResultFor(b.base, quibble));
  }

  /** A builder fresh from `new` and `set_tool` reports exactly one rule per
      alert under the named tool. */
  lemma FreshBuilderRules(name: string, version: string, alerts: seq<Alert>, base: string, quibble: string -> string, cvss: Alert -> string)
    ensures var b := AddResults(SetBase(SetTool(NewBuilder(), name, version), base), alerts);
      var driver := Build(b, quibble, cvss).value.runs[0].tool.driver;
      && driver.name == name && driver.organization == Organization && driver.semanticVersion == version
      && |driver.rules| == |alerts|
      && |Build(b, quibble, cvss).value.runs[0].results| == |alerts|
  {
  }
}

=== FILE: security.dfy ===
/**
  The alert vocabulary (`src/security.rs`, with the `RuleID::Quibble` variant
  and the `AlertLocation` record the rule files construct): severities in
  declaration order, rule identifiers and how they render, and the alert
  record with its defaults and rendering.
 */
module Security {
  import opened Wrappers
  import opened Strings

  /** Declared most severe first; the derived ordering follows declaration order. */
  datatype Severity = Critical | High | Medium | Low | Information | Quality

  /** Every severity, in declaration order. */
  const Severities: seq<Severity> := [Critical, High, Medium, Low, Information, Quality]

  /** The position of `s` in declaration order; the sort key of `Rules::run`. */
  function Rank(s: Severity): (r: nat)
    ensures r < |Severities| && Severities[r] == s
  {
    match s
    case Critical => 0
    case High => 1
    case Medium => 2
    case Low => 3
    case Information => 4
    case Quality => 5
  }

  /** The six variants are exactly the ones listed, each once. */
  lemma SeveritiesEnumerate()
    ensures |Severities| == 6
    ensures forall i, j :: 0 <= i < j < |Severities| ==> Severities[i] != Severities[j]
    ensures forall s: Severity :: s in Severities
  {
    forall s: Severity
      ensures s in Severities
    {
      assert Severities[Rank(s)] == s;
    }
  }

  /** `Severity::default()` */
  function DefaultSeverity(): (s: Severity)
    ensures Rank(s) == 4
  {
    Information
  }

  /** `Display for Severity`: the variant's own name. */
  function SeverityName(s: Severity): (name: string)
    ensures |name| >= 3
    ensures 'A' <= name[0] <= 'Z'
    ensures forall i :: 0 <= i < |name| ==> 'A' <= name[i] <= 'Z' || 'a' <= name[i] <= 'z'
  {
    match s
    case Critical => "Critical"
    case High => "High"
    case Medium => "Medium"
    case Low => "Low"
    case Information => "Information"
    case Quality => "Quality"
  }

  /** No two severities print alike, so the printed name identifies the variant. */
  lemma SeverityNameInjective(a: Severity, b: Severity)
    requires SeverityName(a) == SeverityName(b)
    ensures a == b
  {
    var na, nb := SeverityName(a), SeverityName(b);
    assert na[0] == nb[0] && na[1] == nb[1];
  }

  /** Rule identifiers. `Quibble` is the internal short code the rule files use. */
  datatype RuleId = Cwe(code: string) | Owasp(code: string) | Quibble(code: string) | NoId

  /** `RuleID::default()` */
  function DefaultRuleId(): (id: RuleId)
    ensures id.NoId?
  {
    NoId
  }

  const CwePrefix: string := "CWE-"
  const OwaspPrefix: string := "OWASP-"
  const NoIdText: string := "N/A"

  /** `Display for RuleID`. How a `Quibble` code renders is not part of this
      model and is taken as the parameter `quibble`. */
  function RuleIdText(id: RuleId, quibble: string -> string): (t: string)
    ensures id.Cwe? ==> StartsWith(t, CwePrefix) && t[|CwePrefix|..] == id.code
    ensures id.Owasp? ==> StartsWith(t, OwaspPrefix) && t[|OwaspPrefix|..] == id.code
    ensures id.NoId? ==> t == NoIdText
  {
    match id
    case NoId => NoIdText
    case Owasp(i) => OwaspPrefix + i
    case Cwe(c) => CwePrefix + c
    case Quibble(q) => quibble(q)
  }

  /** Apart from the uninterpreted `Quibble` codes, the rendered identifier
      determines the identifier. */
  lemma RuleIdTextInjective(a: RuleId, b: RuleId, quibble: string -> string)
    requires !a.Quibble? && !b.Quibble?
    requires RuleIdText(a, quibble) == RuleIdText(b, quibble)
    ensures a == b
  {
    var t := RuleIdText(a, quibble);
    assert a.Cwe? ==> t[0] == 'C';
    assert a.Owasp? ==> t[0] == 'O';
    assert a.NoId? ==> t[0] == 'N';
    assert b.Cwe? ==> t[0] == 'C';
    assert b.Owasp? ==> t[0] == 'O';
    assert b.NoId? ==> t[0] == 'N';
  }

  /** Where an alert points: the file and, when the line mapper knew the key,
      the zero-based line. */
  datatype AlertLocation = AlertLocation(path: string, line: Option<nat>)

  /** `AlertLocation::default()`: empty path, no line. */
  function DefaultLocation(): (loc: AlertLocation)
    ensures loc.path == "" && loc.line.None?
  {
    AlertLocation("", None)
  }

  /** One finding. */
  datatype Alert = Alert(details: string, severity: Severity, id: RuleId, location: AlertLocation)

  /** `Alert::new()` / `Alert::default()` */
  function NewAlert(): (a: Alert)
    ensures a.details == "" && a.severity == DefaultSeverity() && a.id == DefaultRuleId()
    ensures a.location == DefaultLocation()
  {
    Alert("", DefaultSeverity(), DefaultRuleId(), DefaultLocation())
  }

  /** `Display for Alert`: `Alert(sev, 'details')` without an identifier,
      `Alert(sev, id, 'details')` with one. */
  function AlertText(a: Alert, quibble: string -> string): (t: string)
    ensures StartsWith(t, "Alert(" + SeverityName(a.severity) + ", ")
    ensures !a.id.NoId? ==> StartsWith(t, "Alert(" + SeverityName(a.severity) + ", " + RuleIdText(a.id, quibble) + ", '")
    ensures !a.id.NoId? ==> |t| == |SeverityName(a.severity)| + |RuleIdText(a.id, quibble)| + |a.details| + 13
    ensures EndsWith(t, "'" + a.details + "')")
    ensures a.id.NoId? <==> |t| == |SeverityName(a.severity)| + |a.details| + 11
  {
    if !a.id.NoId? then
      "Alert(" + SeverityName(a.severity) + ", " + RuleIdText(a.id, quibble) + ", '" + a.details + "')"
    else
      "Alert(" + SeverityName(a.severity) + ", '" + a.details + "')"
  }

  /** The short form can be read back: two alerts without an identifier
      that print alike have the same severity and the same details. */
  lemma AlertTextShortFormInjective(a: Alert, b: Alert, quibble: string -> string)
    requires a.id.NoId? && b.id.NoId?
    requires AlertText(a, quibble) == AlertText(b, quibble)
    ensures a.severity == b.severity && a.details == b.details
  {
    var na, nb := SeverityName(a.severity), SeverityName(b.severity);
    var t := AlertText(a, quibble);
    assert t == "Alert(" + na + ", '" + a.details + "')";
    assert t == "Alert(" + nb + ", '" + b.details + "')";
    assert na == t[6..6 + |na|] == nb;
    SeverityNameInjective(a.severity, b.severity);
    assert a.details == t[9 + |na|..|t| - 2] == b.details;
  }
}

=== FILE: seqs.dfy ===
/**
  Generic sequence combinators: the `for … in … { alerts.push(…) }` loops of
  the rules are `ConcatMap`s over the services, and "one alert per matching
  service" is a `Map` over a `Filter`.
 */
module Seqs {

  /** Concatenation of `f` applied to each element, in order. */
  function ConcatMap<T, U>(xs: seq<T>, f: T -> seq<U>): seq<U>
  {
    if |xs| == 0 then [] else f(xs[0]) + ConcatMap(xs[1..], f)
  }

  /** The elements satisfying `p`, in order. */
  function Filter<T(!new)>(xs: seq<T>, p: T -> bool): (r: seq<T>)
    ensures |r| <= |xs|
    ensures forall x :: x in r <==> x in xs && p(x)
  {
    if |xs| == 0 then []
    else
      assert forall x :: x in xs <==> x == xs[0] || x in xs[1..];
      (if p(xs[0]) then [xs[0]] else []) + Filter(xs[1..], p)
  }

  /** `g` applied to each element. */
  function Map<T, U>(xs: seq<T>, g: T -> U): (r: seq<U>)
    ensures |r| == |xs|
    ensures forall i :: 0 <= i < |xs| ==> r[i] == g(xs[i])
  {
    if |xs| == 0 then [] else [g(xs[0])] + Map(xs[1..], g)
  }

  lemma {:induction false} FilterAppend<T(!new)>(xs: seq<T>, ys: seq<T>, p: T -> bool)
    ensures Filter(xs + ys, p) == Filter(xs, p) + Filter(ys, p)
    decreases |xs|
  {
    if |xs| == 0 {
      assert xs + ys == ys;
    } else {
      var zs := xs + ys;
      assert zs[0] == xs[0] && zs[1..] == xs[1..] + ys;
      var head := if p(xs[0]) then [xs[0]] else [];
      assert Filter(zs, p) == head + Filter(xs[1..] + ys, p);
      FilterAppend(xs[1..], ys, p);
      assert Filter(xs, p) == head + Filter(xs[1..], p);
    }
  }

  lemma MapAppend<T, U>(xs: seq<T>, ys: seq<T>, g: T -> U)
    ensures Map(xs + ys, g) == Map(xs, g) + Map(ys, g)
  {
    var l, r := Map(xs + ys, g), Map(xs, g) + Map(ys, g);
    forall i | 0 <= i < |l| ensures l[i] == r[i] {
      if i < |xs| {
        assert (xs + ys)[i] == xs[i];
      } else {
        assert (xs + ys)[i] == ys[i - |xs|];
      }
    }
  }

  /** Both halves of a concatenation are its slices. */
  lemma AppendSlices<T>(a: seq<T>, b: seq<T>)
    ensures (a + b)[..|a|] == a && (a + b)[|a|..] == b
  {
  }

  /** Each of four concatenated blocks is the slice at its offset. */
  lemma ConcatSlices<T>(a: seq<T>, b: seq<T>, c: seq<T>, d: seq<T>)
    ensures (a + b + c + d)[..|a|] == a
    ensures (a + b + c + d)[|a|..|a| + |b|] == b
    ensures (a + b + c + d)[|a| + |b|..|a| + |b| + |c|] == c
    ensures (a + b + c + d)[|a| + |b| + |c|..] == d
  {
    var all := a + b + c + d;
    assert all == ((a + b) + c) + d;
    assert all[..|a| + |b| + |c|] == (a + b) + c;
    assert all[..|a| + |b|] == a + b;
  }

  lemma {:induction false} ConcatMapAppend<T, U>(xs: seq<T>, ys: seq<T>, f: T -> seq<U>)
    ensures ConcatMap(xs + ys, f) == ConcatMap(xs, f) + ConcatMap(ys, f)
    decreases |xs|
  {
    if |xs| == 0 {
      assert xs + ys == ys;
    } else {
      assert (xs + ys)[1..] == xs[1..] + ys;
      ConcatMapAppend(xs[1..], ys, f);
    }
  }

  /** When `f` yields exactly one value on the elements satisfying `p` and
      nothing elsewhere, `ConcatMap` is that value per matching element. */
  lemma {:induction false} ConcatMapSingletons<T(!new), U>(xs: seq<T>, f: T -> seq<U>, p: T -> bool, g: T -> U)
    requires forall x :: x in xs ==> f(x) == (if p(x) then [g(x)] else [])
    ensures ConcatMap(xs, f) == Map(Filter(xs, p), g)
    decreases |xs|
  {
    if |xs| != 0 {
      ConcatMapSingletons(xs[1..], f, p, g);
      if p(xs[0]) {
        assert Filter(xs, p) == [xs[0]] + Filter(xs[1..], p);
        assert Map(Filter(xs, p), g) == [g(xs[0])] + Map(Filter(xs[1..], p), g);
      }
    }
  }

  /** Every element of `ConcatMap(xs, f)` comes from `f` of some element of `xs`. */
  lemma {:induction false} ConcatMapMember<T, U>(xs: seq<T>, f: T -> seq<U>, u: U)
    requires u in ConcatMap(xs, f)
    ensures exists x :: x in xs && u in f(x)
    decreases |xs|
  {
    if u !in f(xs[0]) {
      ConcatMapMember(xs[1..], f, u);
    }
  }

  /** `ConcatMap` keeps every value `f` produces. */
  lemma {:induction false} ConcatMapIncludes<T, U>(xs: seq<T>, f: T -> seq<U>, x: T, u: U)
    requires x in xs && u in f(x)
    ensures u in ConcatMap(xs, f)
    decreases |xs|
  {
    if x != xs[0] {
      ConcatMapIncludes(xs[1..], f, x, u);
    }
  }
  /** Running `f` on each element equals first collecting `k` of each
      element and then running `g` on those, when `f` is `g` over `k`. */
  lemma {:induction false} ConcatMapFuse<T, K, U>(xs: seq<T>, f: T -> seq<U>, k: T -> seq<K>, g: K -> seq<U>)
    requires forall x :: x in xs ==> f(x) == ConcatMap(k(x), g)
    ensures ConcatMap(xs, f) == ConcatMap(ConcatMap(xs, k), g)
    decreases |xs|
  {
    if |xs| != 0 {
      ConcatMapFuse(xs[1..], f, k, g);
      ConcatMapAppend(k(xs[0]), ConcatMap(xs[1..], k), g);
    }
  }

  /** `step` applied to the accumulator and each element in turn. */
  function FoldLeft<T, A>(xs: seq<T>, step: (A, T) -> A, a: A): A
    decreases |xs|
  {
    if |xs| == 0 then a else FoldLeft(xs[1..], step, step(a, xs[0]))
  }

  /** Folding over two sequences is folding over the second from where the
      first left off. */
  lemma {:induction false} FoldLeftAppend<T, A>(xs: seq<T>, ys: seq<T>, step: (A, T) -> A, a: A)
    ensures FoldLeft(xs + ys, step, a) == FoldLeft(ys, step, FoldLeft(xs, step, a))
    decreases |xs|
  {
    if |xs| == 0 {
      assert xs + ys == ys;
    } else {
      assert (xs + ys)[0] == xs[0] && (xs + ys)[1..] == xs[1..] + ys;
      FoldLeftAppend(xs[1..], ys, step, step(a, xs[0]));
    }
  }

  /** A fold whose every step appends `f` of the element is the starting
      value followed by the `ConcatMap` of `f`. */
  lemma {:induction false} FoldLeftConcatMap<T, U>(xs: seq<T>, step: (seq<U>, T) -> seq<U>, f: T -> seq<U>, a: seq<U>)
    requires forall i, b :: 0 <= i < |xs| ==> step(b, xs[i]) == b + f(xs[i])
    ensures FoldLeft(xs, step, a) == a + ConcatMap(xs, f)
    decreases |xs|
  {
    if |xs| != 0 {
      assert step(a, xs[0]) == a + f(xs[0]);
      assert forall i :: 0 <= i < |xs[1..]| ==> xs[1..][i] == xs[i + 1];
      FoldLeftConcatMap(xs[1..], step, f, a + f(xs[0]));
      assert (a + f(xs[0])) + ConcatMap(xs[1..], f) == a + (f(xs[0]) + ConcatMap(xs[1..], f));
    }
  }
}

=== FILE: severity_sort.dfy ===
/**
  `alerts.sort_by(|a, b| a.severity.cmp(&b.severity))` of `Rules::run`: a
  stable sort, most severe first.

  The sort is written once for any element type and any `nat`-valued key
  below a bound, as insertion sort, and shown to equal the reference
  result: the elements of each key, in their original order, concatenated
  from the smallest key up. `SortBySeverity` instantiates it with alerts
  keyed by the declaration rank of their severity.
 */
module SeveritySort {
  import opened Security

  ghost predicate Sorted<T>(s: seq<T>, key: T -> nat) {
    forall i, j :: 0 <= i < j < |s| ==> key(s[i]) <= key(s[j])
  }

  /** The elements whose key is `k`, in order. */
  function OfRank<T>(s: seq<T>, key: T -> nat, k: nat): (r: seq<T>)
    ensures |r| <= |s|
  {
    if |s| == 0 then []
    else OfRank(s[..|s| - 1], key, k) + (if key(s[|s| - 1]) == k then [s[|s| - 1]] else [])
  }

  /** `OfRank` keeps exactly the elements whose key is `k`. */
  lemma {:induction false} OfRankMember<T>(s: seq<T>, key: T -> nat, k: nat, a: T)
    ensures a in OfRank(s, key, k) <==> a in s && key(a) == k
    decreases |s|
  {
    if |s| != 0 {
      assert s == s[..|s| - 1] + [s[|s| - 1]];
      OfRankMember(s[..|s| - 1], key, k, a);
    }
  }

  /** The reference result: the key buckets from `r` up to `bound - 1`. */
  function BucketFrom<T>(s: seq<T>, key: T -> nat, bound: nat, r: nat): seq<T>
    decreases bound - r
  {
    if r >= bound then [] else OfRank(s, key, r) + BucketFrom(s, key, bound, r + 1)
  }

  /** Places `x` after every element whose key is not above its own,
      scanning from the end. */
  function Insert<T>(t: seq<T>, key: T -> nat, x: T): (r: seq<T>)
    ensures |r| == |t| + 1
    ensures multiset(r) == multiset(t) + multiset{x}
    decreases |t|
  {
    if |t| == 0 || key(t[|t| - 1]) <= key(x) then t + [x]
    else
      var init, last := t[..|t| - 1], t[|t| - 1];
      assert t == init + [last];
      Insert(init, key, x) + [last]
  }

  function Sort<T>(s: seq<T>, key: T -> nat): (r: seq<T>)
    ensures |r| == |s|
    ensures multiset(r) == multiset(s)
  {
    if |s| == 0 then []
    else
      assert s == s[..|s| - 1] + [s[|s| - 1]];
      Insert(Sort(s[..|s| - 1], key), key, s[|s| - 1])
  }

  lemma {:induction false} OfRankAppend<T>(a: seq<T>, b: seq<T>, key: T -> nat, k: nat)
    ensures OfRank(a + b, key, k) == OfRank(a, key, k) + OfRank(b, key, k)
    decreases |b|
  {
    if |b| == 0 {
      assert a + b == a;
    } else {
      var b', l := b[..|b| - 1], b[|b| - 1];
      assert (a + b)[..|a + b| - 1] == a + b';
      OfRankAppend(a, b', key, k);
    }
  }

  /** Inserting `x` puts it last among the elements of its key and leaves
      the order within every key alone. */
  lemma {:induction false} InsertOfRank<T>(t: seq<T>, key: T -> nat, x: T, k: nat)
    ensures OfRank(Insert(t, key, x), key, k) == OfRank(t, key, k) + (if key(x) == k then [x] else [])
    decreases |t|
  {
    if |t| == 0 || key(t[|t| - 1]) <= key(x) {
      var r := t + [x];
      assert Insert(t, key, x) == r;
      assert r[..|r| - 1] == t && r[|r| - 1] == x;
    } else {
      var init, last := t[..|t| - 1], t[|t| - 1];
      var mid := Insert(init, key, x);
      var r := mid + [last];
      assert Insert(t, key, x) == r;
      assert r[..|r| - 1] == mid && r[|r| - 1] == last;
      InsertOfRank(init, key, x, k);
      assert t[..|t| - 1] == init;
      if key(x) == k {
        assert OfRank(r, key, k) == OfRank(init, key, k) + [x];
      } else if key(last) == k {
        assert OfRank(r, key, k) == OfRank(init, key, k) + [last];
      } else {
        assert OfRank(r, key, k) == OfRank(init, key, k);
      }
    }
  }

  lemma {:induction false} InsertSorted<T>(t: seq<T>, key: T -> nat, x: T)
    requires Sorted(t, key)
    ensures Sorted(Insert(t, key, x), key)
    decreases |t|
  {
    if |t| == 0 || key(t[|t| - 1]) <= key(x) {
    } else {
      var init, last := t[..|t| - 1], t[|t| - 1];
      InsertSorted(init, key, x);
      var r := Insert(init, key, x);
      assert forall a :: a in r ==> key(a) <= key(last) by {
        forall a | a in r ensures key(a) <= key(last) {
          assert a in multiset(r);
          if a != x {
            assert a in multiset(init);
            var i :| 0 <= i < |init| && init[i] == a;
            assert t[i] == a;
          }
        }
      }
      assert forall i :: 0 <= i < |r| ==> r[i] in r;
    }
  }

  /** The sort keeps the order within every key. */
  lemma {:induction false} SortOfRank<T>(s: seq<T>, key: T -> nat, k: nat)
    ensures OfRank(Sort(s, key), key, k) == OfRank(s, key, k)
    decreases |s|
  {
    if |s| != 0 {
      SortOfRank(s[..|s| - 1], key, k);
      InsertOfRank(Sort(s[..|s| - 1], key), key, s[|s| - 1], k);
    }
  }

  lemma {:induction false} SortSorted<T>(s: seq<T>, key: T -> nat)
    ensures Sorted(Sort(s, key), key)
    decreases |s|
  {
    if |s| != 0 {
      SortSorted(s[..|s| - 1], key);
      InsertSorted(Sort(s[..|s| - 1], key), key, s[|s| - 1]);
    }
  }

  lemma OfRankNone<T>(s: seq<T>, key: T -> nat, k: nat)
    requires forall a :: a in s ==> key(a) != k
    ensures OfRank(s, key, k) == []
  {
    if |OfRank(s, key, k)| > 0 {
      OfRankMember(s, key, k, OfRank(s, key, k)[0]);
    }
  }

  /** Buckets from `r` on are empty when every key is below `r`. */
  lemma {:induction false} BucketFromEmpty<T>(s: seq<T>, key: T -> nat, bound: nat, r: nat)
    requires forall a :: a in s ==> key(a) < r
    ensures BucketFrom(s, key, bound, r) == []
    decreases bound - r
  {
    if r < bound {
      OfRankNone(s, key, r);
      BucketFromEmpty(s, key, bound, r + 1);
    }
  }

  /** Appending an element whose key is the largest so far appends it to
      the bucketing. */
  lemma {:induction false} BucketFromSnoc<T>(t: seq<T>, l: T, key: T -> nat, bound: nat, r: nat)
    requires forall a :: a in t ==> key(a) <= key(l)
    requires r <= key(l) < bound
    ensures BucketFrom(t + [l], key, bound, r) == BucketFrom(t, key, bound, r) + [l]
    decreases bound - r
  {
    var tl := t + [l];
    assert tl[..|tl| - 1] == t && tl[|tl| - 1] == l;
    assert OfRank(tl, key, r) == OfRank(t, key, r) + (if key(l) == r then [l] else []);
    if r == key(l) {
      BucketFromEmpty(tl, key, bound, r + 1);
      BucketFromEmpty(t, key, bound, r + 1);
    } else {
      BucketFromSnoc(t, l, key, bound, r + 1);
    }
  }

  /** A sorted sequence is its own bucketing. */
  lemma {:induction false} SortedIsBucketed<T>(t: seq<T>, key: T -> nat, bound: nat)
    requires Sorted(t, key)
    requires forall a :: a in t ==> key(a) < bound
    ensures BucketFrom(t, key, bound, 0) == t
    decreases |t|
  {
    if |t| == 0 {
      BucketFromEmpty(t, key, bound, 0);
    } else {
      var init, l := t[..|t| - 1], t[|t| - 1];
      assert t == init + [l];
      assert Sorted(init, key) by {
        forall i, j | 0 <= i < j < |init| ensures key(init[i]) <= key(init[j]) {
          assert init[i] == t[i] && init[j] == t[j];
        }
      }
      assert forall a :: a in init ==> key(a) <= key(l) by {
        forall a | a in init ensures key(a) <= key(l) {
          var i :| 0 <= i < |init| && init[i] == a;
          assert t[i] == a;
        }
      }
      assert forall a :: a in init ==> a in t;
      SortedIsBucketed(init, key, bound);
      BucketFromSnoc(init, l, key, bound, 0);
    }
  }

  /** Sequences that agree on every key have the same bucketing. */
  lemma {:induction false} BucketFromByRanks<T>(a: seq<T>, b: seq<T>, key: T -> nat, bound: nat, r: nat)
    requires forall k :: OfRank(a, key, k) == OfRank(b, key, k)
    ensures BucketFrom(a, key, bound, r) == BucketFrom(b, key, bound, r)
    decreases bound - r
  {
    if r < bound {
      BucketFromByRanks(a, b, key, bound, r + 1);
    }
  }

  /** The sort is the stable sort by key: each key's elements in their
      original order, smallest key first. */
  lemma SortIsBucketed<T>(s: seq<T>, key: T -> nat, bound: nat)
    requires forall a :: a in s ==> key(a) < bound
    ensures Sort(s, key) == BucketFrom(s, key, bound, 0)
    ensures Sorted(Sort(s, key), key)
  {
    SortSorted(s, key);
    assert forall a :: a in Sort(s, key) ==> a in multiset(Sort(s, key));
    SortedIsBucketed(Sort(s, key), key, bound);
    forall k ensures OfRank(Sort(s, key), key, k) == OfRank(s, key, k) {
      SortOfRank(s, key, k);
    }
    BucketFromByRanks(Sort(s, key), s, key, bound, 0);
  }

  // ------------------------------------------------------------- by severity

  /** The sort key of `Rules::run`: severities compare in declaration order. */
  function SeverityKey(): Alert -> nat {
    (a: Alert) => Rank(a.severity)
  }

  /** The alerts of one severity, in order. */
  function OfSeverity(alerts: seq<Alert>, s: Severity): seq<Alert> {
    OfRank(alerts, SeverityKey(), Rank(s))
  }

  /** The stable sort by severity, as a reference: the Critical alerts, then
      the High ones, and so on down to Quality, each in their original order. */
  function BySeverity(alerts: seq<Alert>): seq<Alert> {
    BucketFrom(alerts, SeverityKey(), |Severities|, 0)
  }

  lemma BySeverityBuckets(alerts: seq<Alert>)
    ensures BySeverity(alerts)
         == OfSeverity(alerts, Critical) + OfSeverity(alerts, High) + OfSeverity(alerts, Medium)
          + OfSeverity(alerts, Low) + OfSeverity(alerts, Information) + OfSeverity(alerts, Quality)
  {
    var key := SeverityKey();
    assert |Severities| == 6;
    assert BucketFrom(alerts, key, 6, 6) == [];
    assert BucketFrom(alerts, key, 6, 5) == OfRank(alerts, key, 5);
    assert BucketFrom(alerts, key, 6, 4) == OfRank(alerts, key, 4) + BucketFrom(alerts, key, 6, 5);
    assert BucketFrom(alerts, key, 6, 3) == OfRank(alerts, key, 3) + BucketFrom(alerts, key, 6, 4);
    assert BucketFrom(alerts, key, 6, 2) == OfRank(alerts, key, 2) + BucketFrom(alerts, key, 6, 3);
    assert BucketFrom(alerts, key, 6, 1) == OfRank(alerts, key, 1) + BucketFrom(alerts, key, 6, 2);
    assert BucketFrom(alerts, key, 6, 0) == OfRank(alerts, key, 0) + BucketFrom(alerts, key, 6, 1);
  }

  /** `sort_by` on severities: each alert is inserted into the sorted prefix. */
  method SortBySeverity(alerts: seq<Alert>) returns (sorted: seq<Alert>)
    ensures sorted == BySeverity(alerts)
    ensures multiset(sorted) == multiset(alerts)
    ensures forall i, j :: 0 <= i < j < |sorted| ==> Rank(sorted[i].severity) <= Rank(sorted[j].severity)
  {
    sorted := [];
    for i := 0 to |alerts|
      invariant sorted == Sort(alerts[..i], SeverityKey())
    {
      assert alerts[..i + 1][..i] == alerts[..i];
      sorted := Insert(sorted, SeverityKey(), alerts[i]);
    }
    assert alerts[..|alerts|] == alerts;
    SortIsBucketed(alerts, SeverityKey(), |Severities|);
  }

  /** Sorting what is already in severity order changes nothing. */
  lemma SortBySeverityIdempotent(alerts: seq<Alert>)
    ensures BySeverity(BySeverity(alerts)) == BySeverity(alerts)
  {
    var key := SeverityKey();
    SortIsBucketed(alerts, key, |Severities|);
    var sorted := Sort(alerts, key);
    assert forall a :: a in sorted ==> a in multiset(sorted);
    SortedIsBucketed(sorted, key, |Severities|);
  }
}

=== FILE: strings.dfy ===
/**
  The handful of `str` operations the linter relies on: prefix and suffix
  tests, substring search, `split_once` on a character, `split` on a
  character and ASCII lower-casing. Each is given by a small recursive
  definition and characterised by its contract.
 */
module Strings {
  import opened Wrappers

  /** `s.starts_with(p)` */
  predicate StartsWith(s: string, p: string) {
    |p| <= |s| && s[..|p|] == p
  }

  /** `s.ends_with(p)` */
  predicate EndsWith(s: string, p: string) {
    |p| <= |s| && s[|s| - |p|..] == p
  }

  /** `sub` occurs in `s` at position `i`. */
  ghost predicate OccursAt(s: string, sub: string, i: int) {
    0 <= i && i + |sub| <= |s| && s[i..i + |sub|] == sub
  }

  /** `s.contains(sub)`: a left-to-right scan for an occurrence. */
  function Contains(s: string, sub: string): (b: bool)
    ensures b <==> exists i :: OccursAt(s, sub, i)
    decreases |s|
  {
    if StartsWith(s, sub) then
      assert OccursAt(s, sub, 0);
      true
    else if |s| == 0 then
      assert forall i :: !OccursAt(s, sub, i);
      false
    else
      var b := Contains(s[1..], sub);
      assert forall i :: OccursAt(s, sub, i) && i > 0 ==> OccursAt(s[1..], sub, i - 1);
      assert forall i :: OccursAt(s[1..], sub, i) ==> OccursAt(s, sub, i + 1);
      b
  }

  /** Occurrences of the character `c` in `s`. */
  function Count(s: string, c: char): (n: nat)
    ensures n <= |s|
    ensures n == 0 <==> c !in s
  {
    if |s| == 0 then 0
    else (if s[0] == c then 1 else 0) + Count(s[1..], c)
  }

  /** `s.split_once(c)`: the text before and after the FIRST `c`. */
  function SplitOnce(s: string, c: char): (r: Option<(string, string)>)
    ensures r.Some? <==> c in s
    ensures r.Some? ==> s == r.value.0 + [c] + r.value.1 && c !in r.value.0
  {
    if |s| == 0 then None
    else if s[0] == c then
      assert s == [] + [c] + s[1..];
      Some(([], s[1..]))
    else
      match SplitOnce(s[1..], c)
      case None => None
      case Some((before, after)) =>
        assert s == [s[0]] + before + [c] + after;
        Some(([s[0]] + before, after))
  }

  /** The first `c`-separated piece is unique: it is the longest `c`-free prefix. */
  lemma {:induction false} SplitOnceUnique(s: string, c: char, before: string, after: string)
    requires s == before + [c] + after && c !in before
    ensures SplitOnce(s, c) == Some((before, after))
  {
    if |before| == 0 {
      assert s[0] == c && s[1..] == after;
    } else {
      assert s[0] == before[0] && s[0] != c;
      assert s[1..] == before[1..] + [c] + after;
      SplitOnceUnique(s[1..], c, before[1..], after);
      assert [s[0]] + before[1..] == before;
    }
  }

  /** Rejoins pieces with the separator between consecutive pieces. */
  function Join(parts: seq<string>, c: char): string
    requires |parts| >= 1
  {
    if |parts| == 1 then parts[0] else parts[0] + [c] + Join(parts[1..], c)
  }

  /** No piece contains the separator. */
  predicate SeparatorFree(parts: seq<string>, c: char) {
    forall i :: 0 <= i < |parts| ==> c !in parts[i]
  }

  /** `s.split(c)`: every maximal `c`-free piece, empty pieces included. */
  function Split(s: string, c: char): (parts: seq<string>)
    ensures |parts| == Count(s, c) + 1
    ensures SeparatorFree(parts, c)
    ensures Join(parts, c) == s
    decreases |s|
  {
    if |s| == 0 then [""]
    else
      var rest := Split(s[1..], c);
      assert s == [s[0]] + s[1..];
      if s[0] == c then
        var parts := [""] + rest;
        assert parts[1..] == rest;
        assert Join(parts, c) == "" + [c] + Join(rest, c);
        parts
      else
        var first := [s[0]] + rest[0];
        assert c !in first;
        var parts := [first] + rest[1..];
        assert parts[0] == first && parts[1..] == rest[1..];
        assert forall i :: 1 <= i < |parts| ==> parts[i] == rest[i];
        if |rest| == 1 then
          assert Join(parts, c) == first;
          parts
        else
          assert Join(rest, c) == rest[0] + [c] + Join(rest[1..], c);
          assert Join(parts, c) == first + [c] + Join(rest[1..], c);
          parts
  }

  /** A `c`-free string is one piece. */
  lemma SplitSeparatorFree(s: string, c: char)
    requires c !in s
    ensures Split(s, c) == [s]
  {
  }

  /** Splitting after a `c`-free head peels that head off. */
  lemma {:induction false} SplitCons(head: string, c: char, tail: string)
    requires c !in head
    ensures Split(head + [c] + tail, c) == [head] + Split(tail, c)
    decreases |head|
  {
    var s := head + [c] + tail;
    if |head| == 0 {
      assert s[0] == c && s[1..] == tail;
    } else {
      assert s[0] == head[0] && s[1..] == head[1..] + [c] + tail;
      SplitCons(head[1..], c, tail);
      assert [head[0]] + head[1..] == head;
    }
  }

  /** `split` inverts `join` on separator-free pieces. */
  lemma {:induction false} SplitJoin(parts: seq<string>, c: char)
    requires |parts| >= 1 && SeparatorFree(parts, c)
    ensures Split(Join(parts, c), c) == parts
    decreases |parts|
  {
    if |parts| == 1 {
      SplitSeparatorFree(parts[0], c);
    } else {
      SplitJoin(parts[1..], c);
      SplitCons(parts[0], c, Join(parts[1..], c));
      assert [parts[0]] + parts[1..] == parts;
    }
  }

  /** ASCII lower-casing of one character (Rust's `to_lowercase` on ASCII text). */
  function LowerChar(ch: char): (r: char)
    ensures 'A' <= ch <= 'Z' ==> 'a' <= r <= 'z'
    ensures !('A' <= ch <= 'Z') ==> r == ch
  {
    if 'A' <= ch <= 'Z' then (ch as int - 'A' as int + 'a' as int) as char else ch
  }

  /** ASCII lower-casing of a string, character by character. */
  function ToLower(s: string): (r: string)
    ensures |r| == |s|
    ensures forall i :: 0 <= i < |s| ==> r[i] == LowerChar(s[i])
  {
    if |s| == 0 then "" else [LowerChar(s[0])] + ToLower(s[1..])
  }
}

=== FILE: wrappers.dfy ===
/** Option and Result, the two failure-carrying shapes the modelled code returns. */
module Wrappers {

  /** An optional value (Rust's `Option`). */
  datatype Option<+T> = None | Some(value: T) {

    /** The value, or `default` when absent (Rust's `unwrap_or`). */
    function GetOr(default: T): (r: T)
      ensures Some? ==> r == value
      ensures None? ==> r == default
    {
      match this
      case Some(v) => v
      case None => default
    }
  }

  /** A value or an error (Rust's `Result`). */
  datatype Result<+T, +E> = Ok(value: T) | Err(error: E)
}
